=== FILE: README.md ===
# Zource plugin manager and widget container, modelled in Dafny

Zource is a PHP web application. This project models two of its parts.

The first part is the plugin manager, `TaskService/PluginManager.php`. It installs plugins from three kinds of source: a directory, a zip archive, or a URL that it downloads. It validates each plugin's `zource-plugin.json` manifest and stores one record per plugin. It activates, deactivates and uninstalls plugins, and regenerates the autoloader table after each change. That table maps every namespace of every active plugin to a path string that starts with `data/plugins/<name>/`.

The second part is the `WidgetContainer` entity. It holds a dashboard layout such as `33-67` (column widths joined by `-`) and a collection of widgets, each placed in a column.

## How the model is organised

- **`Outcomes`** holds `Option`, `Result`, the plugin errors and the outcome `Status`. Each exception the PHP code throws becomes a `Failed(error)` outcome.
- **`Manifest`** models `createPluginInfo` over the decoded manifest: null, a scalar, or an associative array of strings and string tables. It also holds the name check. The check is `preg_match` with an unanchored pattern, so it is the same as "the name contains `x/y`, with `x` and `y` from `[a-z0-9-]`". The lemma `NameCheckIsPatternSearch` proves this. So a name such as `Acme/widgets` passes the check, although it is not of the form `vendor/name`, as `NameCheckIsUnanchored` shows.
- **`Registry`** models the stored `Plugin` records, in storage order. It holds the repository queries and updates the manager performs. Ids come from a counter. The invariant `Consistent` says that names and ids are unique and that every id is below the counter.
- **`Autoloader`** models the table `updateAutoloader` writes, as a list of `(namespace, path)` entries. `BuildEntries` has the same nested loops as the PHP code.
- **`FileSystems`** models the file system as a map from path to node, with a `FileSystem` class. It holds `unlink`, `rmdir`, writing a file and `ZipArchive::extractTo`. `ChildFirstOrder` is an order for deleting a tree: each path once, and every directory after everything inside it. It takes longer paths first, so it may interleave subtrees. The depth-first order of a child-first `RecursiveIteratorIterator` is another order of this kind, and the result of the deletion does not depend on which one is used.
- **`PluginManagement`** has one specification function per operation, from the old `World` to an outcome and a new `World`. It proves its lemmas about those functions. Its `PluginManager` class changes its fields and the file system step by step, as the PHP methods do. Each method is proved to reach exactly what its specification function says.
- **`Widgets`** models the `WidgetContainer` class, `explode`/`implode`, and the widgets of one column.

Where the code and the intended behaviour differ, the model follows the code:

- **Name check.** The name check is unanchored, as described above.
- **Download.** A download writes the response body to `data/tmp/plugin-<suffix>.zip` before it checks the status. The file stays there when the status is not OK. It also stays when the manifest inside the archive fails validation.
- **Uninstall.** `uninstall` deletes the record before it removes the directory. When the plugin's path is not a directory (missing, or a file), the clean-up fails and the autoloader is not regenerated. The table keeps its old entries, which include the removed plugin's when it was active (`UninstallRemovesPlugin`).
- **Unresolved paths.** `ltrim` strips only leading slashes, and the name check does not exclude `..`. A namespace path `../../../etc` therefore gives the table entry `data/plugins/acme/widgets/../../../etc` (`DotDotNamespacePath`). A plugin named `../../tmp/a/b` is accepted and installed under `data/plugins/../../tmp/a/b` (`DotDotNameAccepted`), which `uninstall` later deletes recursively. Both paths resolve outside `data/plugins`.
- **Extraction.** `installFile` extracts the archive before `installDirectory` looks the name up. So an archive whose plugin is already installed overwrites that plugin's files (`InstallFileInstalls`).
- **Duplicate manifest members.** An archive that holds `zource-plugin.json` twice is validated on its first copy, which `getFromName` returns, but extraction keeps the last copy, and `installDirectory` reads that one back. The install can then fail after extraction, for example with invalid JSON, and leave the extracted files in `data/plugins/acme/widgets` (`DuplicateManifestInstall`).
- **Empty namespaces.** Validation only checks that the `namespaces` key exists. An empty table passes, and the plugin is installed and active with no entry in the autoloader table (`EmptyNamespacesAccepted`).
- **Nested names.** The unanchored check accepts both `a/b` and `a/b/c`, and the second plugin's directory lies inside the first's. Uninstalling `a/b` then deletes `data/plugins/a/b/c` with the rest of `data/plugins/a/b`, while the `a/b/c` record stays stored (`NestedNameUninstall`).

## Model

| member | source | states |
|---|---|---|
| Manifest.CreatePluginInfo | module/ZourceApplication/src/ZourceApplication/TaskService/PluginManager.php:193-214 | The checks run in the source's order and the first failing one decides the error: a falsy decoded value gives invalid JSON, then a missing `name`, then a name failing the pattern, then missing `namespaces`. The result is Ok exactly when the manifest passes all checks, and then it is the decoded array unchanged. |
| Manifest.NameCheckIsPatternSearch | module/ZourceApplication/src/ZourceApplication/TaskService/PluginManager.php:205-207 | The name check holds exactly when the pattern `[a-z0-9-]+/[a-z0-9-]+` occurs somewhere in the name. |
| Manifest.NameCheckIsUnanchored | module/ZourceApplication/src/ZourceApplication/TaskService/PluginManager.php:205-207 | Every name that matches the pattern as a whole passes the check. `Acme/widgets` also passes, though it does not match as a whole. |
| Registry.FindByName | module/ZourceApplication/src/ZourceApplication/TaskService/PluginManager.php:33-40 | A record that is found is stored and has that name. Nothing is found exactly when no stored record has the name. |
| Registry.FindById | module/ZourceApplication/src/ZourceApplication/TaskService/PluginManager.php:60-65 | A record that is found is stored and has that id. Nothing is found exactly when no stored record has the id. |
| Registry.SetActive | module/ZourceApplication/src/ZourceApplication/TaskService/PluginManager.php:42-58 | Only the flag of the record with that id changes. Every other record and every other field stays the same, at the same position. |
| Registry.RemoveId | module/ZourceApplication/src/ZourceApplication/TaskService/PluginManager.php:138-139 | The remaining records are exactly the stored ones without that id, and there are no more of them than before. |
| Registry.RemoveIdKeepsConsistent | module/ZourceApplication/src/ZourceApplication/TaskService/PluginManager.php:138-139 | Removing a record keeps names and ids unique and below the id counter. |
| Registry.SetActiveKeepsConsistent | module/ZourceApplication/src/ZourceApplication/TaskService/PluginManager.php:42-58 | Changing a flag keeps the registry invariant. |
| Registry.RemovedNameIsGone | module/ZourceApplication/src/ZourceApplication/TaskService/PluginManager.php:136-139 | After a stored plugin is removed, looking its name up finds nothing. |
| Autoloader.LTrimStripsLeadingRun | module/ZourceApplication/src/ZourceApplication/TaskService/PluginManager.php:162 | What `ltrim(path, '/')` returns is what is left of the path after a leading run, and everything cut off is a slash. |
| Autoloader.LTrim | module/ZourceApplication/src/ZourceApplication/TaskService/PluginManager.php:162 | `ltrim(path, '/')` is no longer than the path and does not start with a slash. |
| Autoloader.BuildEntries | module/ZourceApplication/src/ZourceApplication/TaskService/PluginManager.php:155-165 | The nested loops produce the table: the entries of the active plugins, in storage order and then namespace order. |
| Autoloader.NamespaceEntriesMembership | module/ZourceApplication/src/ZourceApplication/TaskService/PluginManager.php:158-164 | An entry is among a plugin's entries exactly when one of its namespaces produces it. |
| Autoloader.NamespaceEntries | module/ZourceApplication/src/ZourceApplication/TaskService/PluginManager.php:158-164 | A plugin contributes exactly one entry per namespace. |
| Autoloader.EntriesMembership | module/ZourceApplication/src/ZourceApplication/TaskService/PluginManager.php:155-165 | An entry is in the table exactly when some stored plugin is active and one of its namespaces produces that entry. |
| Autoloader.Entries | module/ZourceApplication/src/ZourceApplication/TaskService/PluginManager.php:155-165 | The table has as many entries as the active plugins have namespaces. |
| Autoloader.EntriesAppend | module/ZourceApplication/src/ZourceApplication/TaskService/PluginManager.php:155-165 | The table of two record lists put together is the two tables put together. |
| Autoloader.EntryPathsStartWithPluginDir | module/ZourceApplication/src/ZourceApplication/TaskService/PluginManager.php:156-162 | Every path in the table starts with the string `data/plugins/<name>/` of an active stored plugin. The path is not resolved, so `..` segments can still lead outside that directory. |
| Autoloader.DotDotNamespacePath | module/ZourceApplication/src/ZourceApplication/TaskService/PluginManager.php:162 | A namespace path `../../../etc` of `acme/widgets` gives the entry `data/plugins/acme/widgets/../../../etc`, which starts with the plugin directory as a string. |
| Autoloader.DeactivationEntries | module/ZourceApplication/src/ZourceApplication/TaskService/PluginManager.php:51-58 | After a deactivation, the table holds exactly the entries of the other active plugins. |
| Autoloader.ActivationEntries | module/ZourceApplication/src/ZourceApplication/TaskService/PluginManager.php:42-49 | After an activation, the table holds exactly the entries of the already active plugins and those of the activated one. |
| FileSystems.Lookup | module/ZourceApplication/src/ZourceApplication/TaskService/PluginManager.php:93-94 | The member found under a name is the first member with that name. Nothing is found exactly when no member has that name. |
| FileSystems.ExtractedMember | module/ZourceApplication/src/ZourceApplication/TaskService/PluginManager.php:102 | After extraction, each member of an archive with distinct member names is a file below the target directory, with that member's content. |
| FileSystems.ChildFirstOrder | module/ZourceApplication/src/ZourceApplication/TaskService/PluginManager.php:222-228 | The order lists every path inside the directory exactly once, and each directory after everything inside it. |
| FileSystems.FileSystem.Unlink | module/ZourceApplication/src/ZourceApplication/TaskService/PluginManager.php:89 | `unlink` removes the path when it is a file. Otherwise it changes nothing. |
| FileSystems.FileSystem.Rmdir | module/ZourceApplication/src/ZourceApplication/TaskService/PluginManager.php:234 | `rmdir` removes the path only when it is an empty directory. Otherwise it changes nothing. |
| FileSystems.FileSystem.Write | module/ZourceApplication/src/ZourceApplication/TaskService/PluginManager.php:179-184 | The download stream writes the body at the path and changes nothing else. |
| FileSystems.FileSystem.ExtractTo | module/ZourceApplication/src/ZourceApplication/TaskService/PluginManager.php:102 | The file system becomes the extraction of the members below the directory. |
| PluginManagement.PlanInstall | module/ZourceApplication/src/ZourceApplication/TaskService/PluginManager.php:108-123 | The install is rejected exactly when the manifest file is missing or fails validation. It is skipped only when a stored record has the manifest's name. A new record gets the next id, is active, and has a name no stored record has. |
| PluginManagement.InstallDirectorySpec | module/ZourceApplication/src/ZourceApplication/TaskService/PluginManager.php:108-134 | Installing from a directory leaves the `files` map unchanged and at most appends one record. The autoloader file the source rewrites at :169 is the separate `autoloader` field. A failure changes nothing. An appended record advances the id counter and regenerates the table. |
| PluginManagement.InstallFileSpec | module/ZourceApplication/src/ZourceApplication/TaskService/PluginManager.php:84-106 | Installing from an archive at most appends one record. A failure leaves the registry and the table as they were. |
| PluginManagement.InstallExternalSpec | module/ZourceApplication/src/ZourceApplication/TaskService/PluginManager.php:74-82 | Installing from a path or URL at most appends one record. A failure leaves the registry and the table as they were. |
| PluginManagement.UninstallSpec | module/ZourceApplication/src/ZourceApplication/TaskService/PluginManager.php:136-144 | The remaining records are exactly those with another id, whether or not the clean-up succeeds. The outcome is Done exactly when the plugin directory exists. The id counter does not change. |
| PluginManagement.SetActiveSpec | module/ZourceApplication/src/ZourceApplication/TaskService/PluginManager.php:42-58 | Activation or deactivation sets the flag of the record with that id. Every record keeps its id and name and every other flag. The files and the id counter do not change. |
| PluginManagement.InstallDirectoryFailures | module/ZourceApplication/src/ZourceApplication/TaskService/PluginManager.php:108-116 | A missing manifest file gives that error, and a manifest failing validation gives its own error. Every failure leaves the state unchanged. |
| PluginManagement.InstallDirectoryExistingName | module/ZourceApplication/src/ZourceApplication/TaskService/PluginManager.php:118-121 | Installing a name that is already stored succeeds and changes nothing. |
| PluginManagement.FreshInstall | module/ZourceApplication/src/ZourceApplication/TaskService/PluginManager.php:123-133 | A new name adds exactly one record at the end, active, with the next id and the manifest's name. Its namespaces are those of the `(array)` cast. It has a description exactly when the manifest has one, and then that description is the manifest's value. The stored records and the files stay the same. The table gains that plugin's entries after the old ones. |
| PluginManagement.StringNamespacesCast | module/ZourceApplication/src/ZourceApplication/TaskService/PluginManager.php:123 | A `namespaces` string `s` becomes, through the `(array)` cast, the single namespace `0`, loaded from `data/plugins/<name>/` followed by `s` without its leading slashes. |
| PluginManagement.DotDotNameAccepted | module/ZourceApplication/src/ZourceApplication/TaskService/PluginManager.php:205 | The name `../../tmp/a/b` passes validation, and its plugin directory is `data/plugins/../../tmp/a/b`. |
| PluginManagement.EmptyNamespacesAccepted | module/ZourceApplication/src/ZourceApplication/TaskService/PluginManager.php:209-211 | A manifest whose `namespaces` is an empty table passes validation. Installing its directory succeeds and stores one active record with no namespaces, and the table stays empty. |
| PluginManagement.DuplicateManifestInstall | module/ZourceApplication/src/ZourceApplication/TaskService/PluginManager.php:93-116 | For an archive holding a valid manifest and then a second `zource-plugin.json` that is not JSON, the first copy validates. The install still fails with invalid JSON, because the extracted plugin directory holds the second copy. The directory and that file stay on disk, and no record is stored. |
| PluginManagement.NestedNameUninstall | module/ZourceApplication/src/ZourceApplication/TaskService/PluginManager.php:136-144 | `a/b` and `a/b/c` both pass validation. Uninstalling `a/b` succeeds and deletes `data/plugins/a/b/c`, while the `a/b/c` record stays stored. |
| PluginManagement.InstallDirectoryKeepsConsistent | module/ZourceApplication/src/ZourceApplication/TaskService/PluginManager.php:108-134 | Installing from a directory keeps names and ids unique and below the id counter. |
| PluginManagement.InstallDirectoryIdempotent | module/ZourceApplication/src/ZourceApplication/TaskService/PluginManager.php:108-134 | Installing the same directory again gives the same outcome and the same state as installing it once. |
| PluginManagement.InstallFileFailures | module/ZourceApplication/src/ZourceApplication/TaskService/PluginManager.php:84-99 | An archive that cannot be opened fails and is deleted, and so is one without the manifest member. Nothing else changes. A manifest failing validation fails and leaves everything, the archive included, in place. |
| PluginManagement.InstallFileInstalls | module/ZourceApplication/src/ZourceApplication/TaskService/PluginManager.php:99-105 | A valid archive with distinct member names is extracted into `data/plugins/<name>` and succeeds. A stored name keeps the registry as it was. A new name appends the record built from the manifest. |
| PluginManagement.InstallFileKeepsConsistent | module/ZourceApplication/src/ZourceApplication/TaskService/PluginManager.php:84-106 | Installing from an archive keeps the registry invariant. |
| PluginManagement.InstallExternalKeepsConsistent | module/ZourceApplication/src/ZourceApplication/TaskService/PluginManager.php:74-82 | Every path keeps the registry invariant. A download whose response is not OK fails with the download error and leaves the registry as it was. |
| PluginManagement.UninstallRemovesPlugin | module/ZourceApplication/src/ZourceApplication/TaskService/PluginManager.php:136-144 | Afterwards neither the name nor the id is found, and the invariant holds. The outcome is Done exactly when the plugin directory exists. Then the directory and everything in it are gone, and the table is regenerated. Otherwise the files stay and the table keeps its old entries. |
| PluginManagement.SetActiveChangesOnlyThatFlag | module/ZourceApplication/src/ZourceApplication/TaskService/PluginManager.php:42-58 | Activation and deactivation change that plugin's flag and nothing else in the registry or the files. They keep the invariant and regenerate the table. |
| PluginManagement.AcmeWidgetsExample | module/ZourceApplication/src/ZourceApplication/TaskService/PluginManager.php:108-170 | Installing `data/plugins/acme/widgets` stores one active `acme/widgets` record. The table then holds only `Acme\Widgets => data/plugins/acme/widgets/src`. |
| PluginManagement.PluginManager.constructor | module/ZourceApplication/src/ZourceApplication/TaskService/PluginManager.php:28-31 | The manager starts on the given file system and store, with the registry invariant. |
| PluginManagement.PluginManager.ActivatePlugin | module/ZourceApplication/src/ZourceApplication/TaskService/PluginManager.php:42-49 | The new state is the activation of the old one, and the invariant is kept. |
| PluginManagement.PluginManager.DeactivatePlugin | module/ZourceApplication/src/ZourceApplication/TaskService/PluginManager.php:51-58 | The new state is the deactivation of the old one, and the invariant is kept. |
| PluginManagement.PluginManager.InstallExternal | module/ZourceApplication/src/ZourceApplication/TaskService/PluginManager.php:74-82 | The outcome and the new state are what the specification function gives: a directory is installed in place, and anything else is downloaded. |
| PluginManagement.PluginManager.DownloadFile | module/ZourceApplication/src/ZourceApplication/TaskService/PluginManager.php:172-191 | The body is written to the temporary archive first. A response that is not OK then fails, and any other is installed from that file. |
| PluginManagement.PluginManager.InstallFile | module/ZourceApplication/src/ZourceApplication/TaskService/PluginManager.php:84-106 | The outcome and the new state are those of the archive installation's specification function. |
| PluginManagement.PluginManager.InstallDirectory | module/ZourceApplication/src/ZourceApplication/TaskService/PluginManager.php:108-134 | The outcome and the new state are those of the directory installation's specification function. |
| PluginManagement.PluginManager.Uninstall | module/ZourceApplication/src/ZourceApplication/TaskService/PluginManager.php:136-144 | The outcome and the new state are those of the uninstall's specification function. |
| PluginManagement.PluginManager.UpdateAutoloader | module/ZourceApplication/src/ZourceApplication/TaskService/PluginManager.php:146-170 | The autoloader becomes the table of the stored plugins, and nothing else changes. |
| PluginManagement.PluginManager.CleanUpDirectory | module/ZourceApplication/src/ZourceApplication/TaskService/PluginManager.php:216-239 | A path that is not a directory fails and changes nothing. Otherwise the directory and everything inside it are removed and nothing else is. The deletions run child-first, each path once, with the directory last, so every `rmdir` meets an empty directory. |
| Widgets.Explode | module/ZourceApplication/src/ZourceApplication/Entity/WidgetContainer.php:88 | `explode` always returns at least one piece. |
| Widgets.ImplodeExplode | module/ZourceApplication/src/ZourceApplication/Entity/WidgetContainer.php:86-89 | Joining the pieces with the separator gives back the layout. |
| Widgets.ExplodeImplode | module/ZourceApplication/src/ZourceApplication/Entity/WidgetContainer.php:86-89 | Pieces without separator are recovered from their join, so the pieces are the only such split. |
| Widgets.ExplodeCount | module/ZourceApplication/src/ZourceApplication/Entity/WidgetContainer.php:86-89 | There is one more column than there are `-` characters. |
| Widgets.ExplodePiecesHaveNoSeparator | module/ZourceApplication/src/ZourceApplication/Entity/WidgetContainer.php:86-89 | No column contains `-`. |
| Widgets.Layout333334Columns | module/ZourceApplication/src/ZourceApplication/Entity/WidgetContainer.php:19 | `33-33-34` has the columns 33, 33 and 34. |
| Widgets.Layout3367Columns | module/ZourceApplication/src/ZourceApplication/Entity/WidgetContainer.php:20 | `33-67` has the columns 33 and 67. |
| Widgets.Layout5050Columns | module/ZourceApplication/src/ZourceApplication/Entity/WidgetContainer.php:21 | `50-50` has the columns 50 and 50. |
| Widgets.Layout6733Columns | module/ZourceApplication/src/ZourceApplication/Entity/WidgetContainer.php:22 | `67-33` has the columns 67 and 33. |
| Widgets.Layout100Columns | module/ZourceApplication/src/ZourceApplication/Entity/WidgetContainer.php:23 | `100` is a single column. |
| Widgets.StandardLayouts | module/ZourceApplication/src/ZourceApplication/Entity/WidgetContainer.php:19-23 | Every predefined layout has one to three decimal column widths that add up to 100. |
| Widgets.ColumnWidgetsExactly | module/ZourceApplication/src/ZourceApplication/Entity/WidgetContainer.php:91-102 | A column's widgets are exactly the widgets whose column is identical to the requested one, each as often as in the collection. |
| Widgets.ColumnWidgetsInOrder | module/ZourceApplication/src/ZourceApplication/Entity/WidgetContainer.php:95-99 | A column's widgets keep the collection's order. |
| Widgets.ColumnsAreDisjoint | module/ZourceApplication/src/ZourceApplication/Entity/WidgetContainer.php:96 | Two different columns share no widget. Because of `===`, the column `1` and the column `"1"` are different. |
| Widgets.ColumnWidgets | module/ZourceApplication/src/ZourceApplication/Entity/WidgetContainer.php:91-102 | A column never has more widgets than the collection, and each of them is placed in that column. |
| Widgets.WidgetContainer.constructor | module/ZourceApplication/src/ZourceApplication/Entity/WidgetContainer.php:45-50 | A new container has the given id and layout and no widgets, so `getLayout` then returns that layout. |
| Widgets.WidgetContainer.SetLayout | module/ZourceApplication/src/ZourceApplication/Entity/WidgetContainer.php:71-76 | The layout becomes the new one, so `getLayout` then returns it. The widgets stay where they are because `updateWidgets` does nothing. |
| Widgets.WidgetContainer.UpdateWidgets | module/ZourceApplication/src/ZourceApplication/Entity/WidgetContainer.php:104-107 | Changes neither the layout nor the widgets; its body in the source is empty. |
| Widgets.WidgetContainer.GetColumns | module/ZourceApplication/src/ZourceApplication/Entity/WidgetContainer.php:86-89 | The columns contain no `-`, there is one more of them than `-` in the layout, and joining them with `-` gives the layout back. |
| Widgets.WidgetContainer.GetWidgetsForColumn | module/ZourceApplication/src/ZourceApplication/Entity/WidgetContainer.php:91-102 | The loop returns the widgets of that column in collection order and changes nothing. |

## Left out

- **Manifest.CreatePluginInfo:** a `name` that is not a string is rejected as an invalid name. In PHP, `preg_match` on an array does not return `0`, so such a name passes the check and the plugin directory becomes `data/plugins/Array`. Modelling PHP's coercions of non-strings to strings is out of scope.
- **PluginManagement.PluginManager.ActivatePlugin, DeactivatePlugin and Uninstall:** these require that the plugin passed is one of the stored records. The PHP code takes a managed entity from the store. What Doctrine does with an entity it does not manage is not modelled.
- **JSON text.** `json_decode` on raw text is not modelled. The manifest is given as a decoded value, restricted as the next line says.
- **Manifest.Field:** a manifest value is either a string or a table of string pairs. Other values `json_decode` can yield are not modelled: null, numbers, booleans, lists and nested objects. So the model cannot express a `null` or scalar `namespaces`, which passes the key check at :209 and which the `(array)` cast at :123 turns into `[]` or a one-element array. It also cannot express a namespace path that is a list, such as `{"Acme\\": ["src", "lib"]}`, which reaches `ltrim` at :162 as an array after the record is flushed at :131, nor a description that is not a string.
- **Zip archives.** The zip format, and the ways `ZipArchive::open` can fail, are not modelled. A path is an archive when it is a file with archive content. Extraction creates the target directory but not the intermediate directories of nested member paths.
- **HTTP and randomness.** The HTTP client and request are not modelled: the response (status OK or not, and its body) is a parameter. The eight random letters of the temporary file name are also a parameter.
- **The autoloader file's text.** The generated PHP, with its date header, `addslashes` escaping and `file_put_contents`, is not modelled. The model keeps the table of entries the file lists.
- **Persistence.** Doctrine persistence, flush failures and `findOneBy`/`findBy` as database queries are not modelled. The store is a sequence of records and ids come from a counter. `getPlugins` is the `plugins` field itself, and `findBy(['active' => true])` is the `active` filter in `Entries`.
- **The clean-up traversal.** The iterator's `.` and `..` entries are skipped in the source and absent from the model. The iterator's depth-first order is not modelled. The model deletes in another order that also puts every directory after its contents, so it removes the same paths and leaves the same files. Symbolic links and permissions are not modelled.
- **The clean-up exception.** `cleanUpDirectory` throws `InvalidArgumentException`, which the file's namespace does not import. PHP would therefore stop with a class-not-found error rather than that exception. The model reports `Failed(NotADirectory)` either way.
- **Path resolution.** The file system is a map keyed by path strings as written. `.` and `..` segments, doubled or trailing slashes, and different spellings of one path are not resolved to the same file. Where the source's `is_dir` and `is_file` resolve a path such as `data/plugins/../../tmp/a/b`, the model compares the raw string.
- **Concurrency.** The model assumes operations run one at a time. `installDirectory` looks the name up and then persists the record without a lock. Two concurrent installs of the same name could both store a record, so the unique-names invariant and the lemmas that keep it hold only for operations run in sequence.
- **Exceptions.** The model represents exceptions as `Failed` outcomes and does not distinguish exception classes or messages.
- **The container's id.** `Uuid::uuid4()` is not modelled: the constructor takes the generated id as a parameter. `getId`, `getLayout` and `getWidgets` are the fields themselves.
- **Changes to widgets.** Callers change the widget collection through the object `getWidgets` returns; here the collection is the `widgets` field. `updateWidgets` has an empty body in the source and does nothing here.
- **Widget values.** A widget is modelled only by its identity and its column value, which is an integer or a string.

=== FILE: autoloader.dfy ===
/** The autoloader table that updateAutoloader regenerates: one namespace => path entry per
    namespace of every active plugin. The file text around the entries is not modelled. */
module Autoloader {
  import opened Registry

  /** A namespace name and the directory its classes are loaded from. */
  type Entry = (string, string)

  /** The installation directory of a plugin. */
  function PluginDir(name: string): string {
    "data/plugins/" + name
  }

  /** ltrim(s, c): s without its leading run of c characters. What it returns is no longer
      than s and does not start with c. */
  function LTrim(s: string, c: char): (r: string)
    ensures |r| <= |s|
    ensures r == [] || r[0] != c
    decreases |s|
  {
    if s != [] && s[0] == c then LTrim(s[1..], c) else s
  }

  /** ltrim removes only leading c characters: it returns what is left of s once they are
      cut off, and everything cut off is c. */
  lemma {:induction false} LTrimStripsLeadingRun(s: string, c: char)
    ensures LTrim(s, c) == s[|s| - |LTrim(s, c)|..]
    ensures forall i :: 0 <= i < |s| - |LTrim(s, c)| ==> s[i] == c
    decreases |s|
  {
    if s != [] && s[0] == c {
      LTrimStripsLeadingRun(s[1..], c);
    }
  }

  /** The entry written for one namespace of the plugin called `name`. */
  function EntryFor(name: string, ns: (string, string)): Entry {
    (ns.0, PluginDir(name) + "/" + LTrim(ns.1, '/'))
  }

  /** The entries written for the namespaces `nss` of the plugin called `name`, in order. */
  function NamespaceEntries(name: string, nss: seq<(string, string)>): (r: seq<Entry>)
    ensures |r| == |nss|
    decreases |nss|
  {
    if nss == [] then [] else NamespaceEntries(name, nss[..|nss| - 1]) + [EntryFor(name, nss[|nss| - 1])]
  }

  /** The entries of one plugin, in namespace order. */
  function PluginEntries(p: Plugin): seq<Entry> {
    NamespaceEntries(p.name, p.namespaces)
  }

  /** What one stored plugin adds to the table: its entries if active, nothing otherwise. */
  function Contribution(p: Plugin): seq<Entry> {
    if p.active then PluginEntries(p) else []
  }

  /** Number of namespaces over all active plugins. */
  function ActiveNamespaceCount(ps: seq<Plugin>): nat
    decreases |ps|
  {
    if ps == [] then 0
    else ActiveNamespaceCount(ps[..|ps| - 1]) + (if ps[|ps| - 1].active then |ps[|ps| - 1].namespaces| else 0)
  }

  /** The whole table, in storage order and then namespace order. */
  function Entries(ps: seq<Plugin>): (r: seq<Entry>)
    ensures |r| == ActiveNamespaceCount(ps)
    decreases |ps|
  {
    if ps == [] then [] else Entries(ps[..|ps| - 1]) + Contribution(ps[|ps| - 1])
  }

  /** The plugin is active and `e` is the entry of one of its namespaces. */
  ghost predicate Provides(p: Plugin, e: Entry) {
    p.active && exists j :: 0 <= j < |p.namespaces| && e == EntryFor(p.name, p.namespaces[j])
  }

  /** An entry is among a plugin's entries exactly when one of its namespaces produces it. */
  lemma {:induction false} NamespaceEntriesMembership(name: string, nss: seq<(string, string)>, e: Entry)
    ensures e in NamespaceEntries(name, nss) <==> exists j :: 0 <= j < |nss| && e == EntryFor(name, nss[j])
    decreases |nss|
  {
    if nss != [] {
      var init := nss[..|nss| - 1];
      NamespaceEntriesMembership(name, init, e);
      if exists j :: 0 <= j < |nss| && e == EntryFor(name, nss[j]) {
        var j :| 0 <= j < |nss| && e == EntryFor(name, nss[j]);
        if j < |nss| - 1 {
          assert init[j] == nss[j];
        }
      }
      if e in NamespaceEntries(name, init) {
        var j :| 0 <= j < |init| && e == EntryFor(name, init[j]);
        assert nss[j] == init[j];
      }
    }
  }

  /** updateAutoloader's nested loops: over the active plugins, then over each one's
      namespaces, appending one entry per namespace. */
  method BuildEntries(ps: seq<Plugin>) returns (entries: seq<Entry>)
    ensures entries == Entries(ps)
  {
    entries := [];
    var i := 0;
    while i < |ps|
      invariant 0 <= i <= |ps|
      invariant entries == Entries(ps[..i])
    {
      var p := ps[i];
      ghost var before := entries;
      if p.active {
        var j := 0;
        while j < |p.namespaces|
          invariant 0 <= j <= |p.namespaces|
          invariant entries == before + NamespaceEntries(p.name, p.namespaces[..j])
        {
          assert p.namespaces[..j + 1][..j] == p.namespaces[..j];
          entries := entries + [EntryFor(p.name, p.namespaces[j])];
          j := j + 1;
        }
        assert p.namespaces[..j] == p.namespaces;
      }
      assert entries == before + Contribution(p);
      assert ps[..i + 1][..i] == ps[..i];
      assert Entries(ps[..i + 1]) == Entries(ps[..i]) + Contribution(p);
      i := i + 1;
    }
    assert ps[..|ps|] == ps;
  }

  /** An entry is in the table exactly when some stored active plugin provides it. */
  lemma {:induction false} EntriesMembership(ps: seq<Plugin>, e: Entry)
    ensures e in Entries(ps) <==> exists i :: 0 <= i < |ps| && Provides(ps[i], e)
    decreases |ps|
  {
    if ps != [] {
      var init, last := ps[..|ps| - 1], ps[|ps| - 1];
      EntriesMembership(init, e);
      NamespaceEntriesMembership(last.name, last.namespaces, e);
      if e in Entries(ps) {
        if e in Entries(init) {
          var i :| 0 <= i < |init| && Provides(init[i], e);
          assert ps[i] == init[i];
        } else {
          assert Provides(ps[|ps| - 1], e);
        }
      }
      if exists i :: 0 <= i < |ps| && Provides(ps[i], e) {
        var i :| 0 <= i < |ps| && Provides(ps[i], e);
        if i < |ps| - 1 {
          assert init[i] == ps[i];
        }
      }
    }
  }

  /** The table of a concatenation is the concatenation of the tables. */
  lemma {:induction false} EntriesAppend(a: seq<Plugin>, b: seq<Plugin>)
    ensures Entries(a + b) == Entries(a) + Entries(b)
    decreases |b|
  {
    if b == [] {
      assert a + b == a;
    } else {
      var ab := a + b;
      assert ab[..|ab| - 1] == a + b[..|b| - 1];
      EntriesAppend(a, b[..|b| - 1]);
    }
  }

  /** Every path of the table starts with the string `data/plugins/<name>/` of the plugin that
      provides it. Paths are not resolved: see DotDotNamespacePath. */
  lemma EntryPathsStartWithPluginDir(ps: seq<Plugin>, e: Entry)
    requires e in Entries(ps)
    ensures exists i :: 0 <= i < |ps| && ps[i].active && PluginDir(ps[i].name) + "/" <= e.1
  {
    EntriesMembership(ps, e);
    var i :| 0 <= i < |ps| && Provides(ps[i], e);
    var j :| 0 <= j < |ps[i].namespaces| && e == EntryFor(ps[i].name, ps[i].namespaces[j]);
    var dir := PluginDir(ps[i].name) + "/";
    assert e.1 == dir + LTrim(ps[i].namespaces[j].1, '/');
    assert e.1[..|dir|] == dir;
  }

  /** ltrim strips leading slashes only, so `..` segments of a namespace path reach the
      table unchanged: once the path is resolved, the entry points outside the plugin's
      directory although its string starts with that directory. */
  lemma DotDotNamespacePath()
    ensures EntryFor("acme/widgets", ("Evil", "../../../etc")) == ("Evil", "data/plugins/acme/widgets/../../../etc")
    ensures PluginDir("acme/widgets") + "/" <= EntryFor("acme/widgets", ("Evil", "../../../etc")).1
  {
    assert LTrim("../../../etc", '/') == "../../../etc";
    assert PluginDir("acme/widgets") + "/" + "../../../etc" == "data/plugins/acme/widgets/../../../etc";
  }

  /** After deactivating a plugin, the table holds only entries of the other active plugins. */
  lemma DeactivationEntries(ps: seq<Plugin>, id: nat, e: Entry)
    ensures e in Entries(SetActive(ps, id, false)) <==>
            exists i :: 0 <= i < |ps| && ps[i].id != id && Provides(ps[i], e)
  {
    var r := SetActive(ps, id, false);
    EntriesMembership(r, e);
    if e in Entries(r) {
      var i :| 0 <= i < |r| && Provides(r[i], e);
      assert ps[i].id != id && Provides(ps[i], e);
    }
    if exists i :: 0 <= i < |ps| && ps[i].id != id && Provides(ps[i], e) {
      var i :| 0 <= i < |ps| && ps[i].id != id && Provides(ps[i], e);
      assert Provides(r[i], e);
    }
  }

  /** After activating a plugin, the table holds every entry of that plugin besides those of
      the plugins that were already active. */
  lemma ActivationEntries(ps: seq<Plugin>, id: nat, e: Entry)
    ensures e in Entries(SetActive(ps, id, true)) <==>
            exists i :: 0 <= i < |ps| && (Provides(ps[i], e) || (ps[i].id == id && Provides(ps[i].(active := true), e)))
  {
    var r := SetActive(ps, id, true);
    EntriesMembership(r, e);
    EntriesMembership(ps, e);
    if e in Entries(r) {
      var i :| 0 <= i < |r| && Provides(r[i], e);
      if ps[i].id == id {
        assert ps[i].(active := true) == r[i];
      } else {
        assert Provides(ps[i], e);
      }
    }
    if exists i :: 0 <= i < |ps| && (Provides(ps[i], e) || (ps[i].id == id && Provides(ps[i].(active := true), e))) {
      var i :| 0 <= i < |ps| && (Provides(ps[i], e) || (ps[i].id == id && Provides(ps[i].(active := true), e)));
      assert Provides(r[i], e);
    }
  }
}

=== FILE: filesystem.dfy ===
/** The part of the file system the plugin manager touches, as a map from path to node, and
    the PHP file functions it calls on it (is_file, is_dir, unlink, rmdir, writing a file,
    ZipArchive::extractTo). */
module FileSystems {
  import opened Outcomes
  import opened Manifest

  /** The contents of a file: JSON text (kept as what json_decode makes of it), a zip
      archive with its members in archive order, or anything else. */
  datatype Content =
    | Json(data: Decoded)
    | Zip(members: seq<(string, Content)>)
    | Binary

  datatype Node = Dir | File(content: Content)

  /** json_decode(file_get_contents(...), true): anything but JSON text decodes to null. */
  function Decode(c: Content): Decoded {
    if c.Json? then c.data else Null
  }

  /** ZipArchive::getFromName: the first member called `name`, if any. */
  function Lookup(members: seq<(string, Content)>, name: string): (r: Option<Content>)
    ensures r.Some? ==> (name, r.value) in members
    ensures r.None? <==> forall i :: 0 <= i < |members| ==> members[i].0 != name
    ensures r.Some? ==>
      (exists i :: 0 <= i < |members| && members[i] == (name, r.value) &&
                   forall j :: 0 <= j < i ==> members[j].0 != name)
  {
    if members == [] then None
    else if members[0].0 == name then Some(members[0].1)
    else Lookup(members[1..], name)
  }

  ghost predicate UniqueMemberNames(members: seq<(string, Content)>) {
    forall i, j :: 0 <= i < j < |members| ==> members[i].0 != members[j].0
  }

  /** q lies strictly inside the directory p. */
  predicate Under(q: string, p: string) {
    p + "/" <= q
  }

  /** Whatever lies inside p has a longer path; in particular nothing lies inside itself. */
  lemma UnderIsLonger(q: string, p: string)
    ensures Under(q, p) ==> |q| > |p|
  {
  }

  /** What lies inside a directory inside root lies inside root. */
  lemma UnderTransitive(q: string, p: string, root: string)
    ensures Under(q, p) && Under(p, root) ==> Under(q, root)
  {
    if Under(q, p) && Under(p, root) {
      var r := root + "/";
      assert p[..|r|] == r;
      assert q[..|p|] == p;
      assert q[..|r|] == p[..|r|];
    }
  }

  predicate IsFileIn(files: map<string, Node>, p: string) {
    p in files && files[p].File?
  }

  predicate IsDirIn(files: map<string, Node>, p: string) {
    p in files && files[p].Dir?
  }

  /** ZipArchive::open succeeds: the path is a file holding an archive. */
  predicate IsArchiveIn(files: map<string, Node>, p: string) {
    IsFileIn(files, p) && files[p].content.Zip?
  }

  /** Nothing is stored inside the directory p. */
  predicate EmptyDirIn(files: map<string, Node>, p: string) {
    forall q :: q in files ==> !Under(q, p)
  }

  /** unlink(p): removes a file; on anything else it only warns. */
  function Unlinked(files: map<string, Node>, p: string): map<string, Node> {
    if IsFileIn(files, p) then files - {p} else files
  }

  /** rmdir(p): removes an empty directory; on anything else it only warns. */
  function Rmdirred(files: map<string, Node>, p: string): map<string, Node> {
    if IsDirIn(files, p) && EmptyDirIn(files, p) then files - {p} else files
  }

  /** The file system once the directory `dir` and everything inside it are gone. */
  function RemovedTree(files: map<string, Node>, dir: string): map<string, Node> {
    map q | q in files && q != dir && !Under(q, dir) :: files[q]
  }

  /** ZipArchive::extractTo(dir): creates `dir` and writes every member below it, a later
      member overwriting an earlier one of the same name. */
  function Extracted(files: map<string, Node>, dir: string, members: seq<(string, Content)>): map<string, Node>
    decreases |members|
  {
    if members == [] then files[dir := Dir]
    else
      var last := members[|members| - 1];
      Extracted(files, dir, members[..|members| - 1])[dir + "/" + last.0 := File(last.1)]
  }

  /** After extraction, each member of an archive with distinct member names is a file below
      `dir` holding that member's content. */
  lemma {:induction false} ExtractedMember(files: map<string, Node>, dir: string,
                                           members: seq<(string, Content)>, k: string, c: Content)
    requires UniqueMemberNames(members) && (k, c) in members
    ensures var r := Extracted(files, dir, members); IsFileIn(r, dir + "/" + k) && r[dir + "/" + k] == File(c)
    decreases |members|
  {
    var n := |members|;
    var last := members[n - 1];
    var init := members[..n - 1];
    var i :| 0 <= i < n && members[i] == (k, c);
    if i < n - 1 {
      assert init[i] == (k, c);
      assert UniqueMemberNames(init) by {
        assert forall a :: 0 <= a < n - 1 ==> init[a] == members[a];
      }
      assert last.0 != k;
      ExtractedMember(files, dir, init, k, c);
      var d := dir + "/";
      assert (d + last.0)[|d|..] == last.0 && (d + k)[|d|..] == k;
    }
  }

  ghost predicate NoDuplicates(s: seq<string>) {
    forall i, j :: 0 <= i < j < |s| ==> s[i] != s[j]
  }

  /** Nothing is listed before a directory that contains it: every directory comes after its
      contents. */
  ghost predicate ChildFirst(order: seq<string>) {
    forall i, j :: 0 <= i < j < |order| ==> !Under(order[j], order[i])
  }

  /** A finite non-empty set of paths has a longest element. */
  lemma {:induction false} LongestExists(s: set<string>)
    requires s != {}
    ensures exists p :: p in s && forall q :: q in s ==> |q| <= |p|
    decreases |s|
  {
    var x :| x in s;
    if s != {x} {
      LongestExists(s - {x});
      var y :| y in s - {x} && forall q :: q in s - {x} ==> |q| <= |y|;
      if |x| <= |y| {
        assert forall q :: q in s ==> |q| <= |y|;
      } else {
        assert forall q :: q in s ==> |q| <= |x|;
      }
    }
  }

  /** An order for deleting the tree below `root`: every path inside `root` exactly once,
      each directory after everything inside it. Longer paths go first, so subtrees may be
      interleaved. RecursiveIteratorIterator in CHILD_FIRST mode yields a depth-first order,
      which is another order of this kind; the deletion's result does not depend on which. */
  method ChildFirstOrder(files: map<string, Node>, root: string) returns (order: seq<string>)
    ensures forall q :: q in order <==> q in files && Under(q, root)
    ensures NoDuplicates(order)
    ensures ChildFirst(order)
  {
    var rest := set q | q in files && Under(q, root);
    order := [];
    while rest != {}
      invariant forall q :: q in order || q in rest <==> q in files && Under(q, root)
      invariant forall q :: q in rest ==> q !in order
      invariant NoDuplicates(order)
      invariant ChildFirst(order)
      invariant forall i, q :: 0 <= i < |order| && q in rest ==> !Under(q, order[i])
      decreases |rest|
    {
      LongestExists(rest);
      var p :| p in rest && forall q :: q in rest ==> |q| <= |p|;
      forall q | q in rest - {p}
        ensures !Under(q, p)
      {
        if Under(q, p) {
          UnderIsLonger(q, p);
        }
      }
      order := order + [p];
      rest := rest - {p};
    }
  }

  /** The directory tree the plugin manager reads and changes. */
  class FileSystem {
    var entries: map<string, Node>

    constructor(entries: map<string, Node>)
      ensures this.entries == entries
    {
      this.entries := entries;
    }

    predicate IsFile(p: string)
      reads this
    {
      IsFileIn(entries, p)
    }

    predicate IsDir(p: string)
      reads this
    {
      IsDirIn(entries, p)
    }

    method Unlink(p: string)
      modifies this
      ensures entries == Unlinked(old(entries), p)
    {
      entries := Unlinked(entries, p);
    }

    method Rmdir(p: string)
      modifies this
      ensures entries == Rmdirred(old(entries), p)
    {
      entries := Rmdirred(entries, p);
    }

    method Write(p: string, node: Node)
      modifies this
      ensures entries == old(entries)[p := node]
    {
      entries := entries[p := node];
    }

    method ExtractTo(dir: string, members: seq<(string, Content)>)
      modifies this
      ensures entries == Extracted(old(entries), dir, members)
    {
      entries := Extracted(entries, dir, members);
    }
  }
}

=== FILE: manifest.dfy ===
/** Validation of a decoded zource-plugin.json manifest (createPluginInfo). */
module Manifest {
  import opened Outcomes

  /** A value stored under a key of the manifest: a string, or an object kept as its
      ordered key => string pairs. */
  datatype Field = Text(s: string) | Table(pairs: seq<(string, string)>)

  /** What decoding the manifest text yields: null for invalid JSON (or the literal null),
      a top-level scalar with its truthiness, or an associative array. */
  datatype Decoded =
    | Null
    | Scalar(truthy: bool)
    | Array(fields: map<string, Field>)

  /** The values that fail the `!$data` test. */
  predicate Falsy(d: Decoded) {
    match d
    case Null => true
    case Scalar(truthy) => !truthy
    case Array(fields) => |fields| == 0
  }

  /** array_key_exists(key, data); on a non-array it does not report the key. */
  predicate HasKey(d: Decoded, key: string) {
    d.Array? && key in d.fields
  }

  /** The character class [a-z0-9-]. */
  predicate IsNameChar(c: char) {
    'a' <= c <= 'z' || '0' <= c <= '9' || c == '-'
  }

  predicate AllNameChars(s: string) {
    forall i :: 0 <= i < |s| ==> IsNameChar(s[i])
  }

  /** s[a..b] is a match of [a-z0-9-]+/[a-z0-9-]+ whose slash is at index m. */
  ghost predicate MatchAt(s: string, a: int, m: int, b: int) {
    0 <= a < m && m + 1 < b <= |s| && s[m] == '/' &&
    AllNameChars(s[a..m]) && AllNameChars(s[m + 1..b])
  }

  /** The unanchored pattern matches somewhere inside s. */
  ghost predicate PatternOccurs(s: string) {
    exists a, m, b :: MatchAt(s, a, m, b)
  }

  /** The anchored pattern ^[a-z0-9-]+/[a-z0-9-]+$ matches all of s. */
  ghost predicate PatternMatchesWhole(s: string) {
    exists m :: MatchAt(s, 0, m, |s|)
  }

  /** The executable name check: a slash with a name character on each side. */
  predicate NameCheck(s: string) {
    exists m | 1 <= m < |s| - 1 :: s[m] == '/' && IsNameChar(s[m - 1]) && IsNameChar(s[m + 1])
  }

  /** The slash test is exactly an unanchored search for the pattern. */
  lemma NameCheckIsPatternSearch(s: string)
    ensures NameCheck(s) <==> PatternOccurs(s)
  {
    if NameCheck(s) {
      var m :| 1 <= m < |s| - 1 && s[m] == '/' && IsNameChar(s[m - 1]) && IsNameChar(s[m + 1]);
      assert MatchAt(s, m - 1, m, m + 2);
    }
    if PatternOccurs(s) {
      var a, m, b :| MatchAt(s, a, m, b);
      assert s[a..m][m - 1 - a] == s[m - 1];
      assert s[m + 1..b][0] == s[m + 1];
    }
  }

  /** Because the pattern is not anchored, the check accepts more than vendor/name:
      every anchored match passes, and so does a name that only contains one. */
  lemma NameCheckIsUnanchored()
    ensures forall s :: PatternMatchesWhole(s) ==> NameCheck(s)
    ensures NameCheck("Acme/widgets") && !PatternMatchesWhole("Acme/widgets")
  {
    forall s | PatternMatchesWhole(s)
      ensures NameCheck(s)
    {
      NameCheckIsPatternSearch(s);
    }
    var s := "Acme/widgets";
    assert s[4] == '/' && IsNameChar(s[3]) && IsNameChar(s[5]);
    forall m
      ensures !MatchAt(s, 0, m, |s|)
    {
      if 0 < m <= |s| {
        assert s[0..m][0] == 'A';
      }
    }
  }

  /** The `name` value is a string containing the pattern. */
  ghost predicate NameValid(f: Field) {
    f.Text? && PatternOccurs(f.s)
  }

  /** A manifest that passes every check. */
  ghost predicate Acceptable(d: Decoded) {
    !Falsy(d) && HasKey(d, "name") && NameValid(d.fields["name"]) && HasKey(d, "namespaces")
  }

  /** Validates the decoded manifest; the checks run in the order of the source and the
      first failing one decides the error. A valid manifest is returned unchanged. */
  function CreatePluginInfo(d: Decoded): (r: Result<map<string, Field>>)
    ensures Falsy(d) ==> r == Err(InvalidJson)
    ensures !Falsy(d) && !HasKey(d, "name") ==> r == Err(MissingName)
    ensures !Falsy(d) && HasKey(d, "name") && !NameValid(d.fields["name"]) ==> r == Err(InvalidName)
    ensures (!Falsy(d) && HasKey(d, "name") && NameValid(d.fields["name"]) &&
             !HasKey(d, "namespaces")) ==> r == Err(MissingNamespaces)
    ensures r.Ok? <==> Acceptable(d)
    ensures r.Ok? ==> d.Array? && r.value == d.fields
  {
    if Falsy(d) then Err(InvalidJson)
    else if !HasKey(d, "name") then Err(MissingName)
    else
      var name := d.fields["name"];
      if !name.Text? then Err(InvalidName)
      else
        NameCheckIsPatternSearch(name.s);
        if !NameCheck(name.s) then Err(InvalidName)
        else if !HasKey(d, "namespaces") then Err(MissingNamespaces)
        else Ok(d.fields)
  }
}

=== FILE: outcomes.dfy ===
/** Option, result and error values shared by the plugin-manager modules. */
module Outcomes {

  datatype Option<+T> = None | Some(value: T)

  /** One constructor per place where PluginManager.php throws. */
  datatype PluginError =
    | InvalidJson            // the decoded manifest is falsy
    | MissingName            // the manifest has no `name` key
    | InvalidName            // `name` holds no vendor/name substring
    | MissingNamespaces      // the manifest has no `namespaces` key
    | MissingPluginJson      // installDirectory: <path>/zource-plugin.json is not a file
    | CannotOpenArchive      // installFile: the archive cannot be opened
    | MissingManifestEntry   // installFile: the archive has no zource-plugin.json
    | DownloadFailed         // downloadFile: the response is not OK
    | NotADirectory          // cleanUpDirectory: the path is not a directory

  datatype Result<+T> = Ok(value: T) | Err(error: PluginError)

  /** Outcome of an operation that either returns nothing or throws. */
  datatype Status = Done | Failed(error: PluginError)
}

=== FILE: plugin_manager.dfy ===
/** The plugin manager: installing from a directory, an archive or a URL, activating,
    deactivating and uninstalling plugins, each followed by regenerating the autoloader.
    Every operation is given as a function from the old state to the outcome and the new
    state; the class PluginManager performs the same steps one by one and is proved to reach
    what the function says. */
module PluginManagement {
  import opened Outcomes
  import opened Manifest
  import opened Registry
  import opened Autoloader
  import opened FileSystems

  /** What the plugin manager works on: the stored plugins, the next id the store hands out,
      the file system, and the entries of the generated autoloader file. */
  datatype World = World(plugins: seq<Plugin>, nextId: nat, files: map<string, Node>, autoloader: seq<Entry>)

  /** An HTTP response streamed to the download file: whether its status is OK, and its body. */
  datatype Response = Response(ok: bool, body: Content)

  /** What installDirectory decides to do. */
  datatype Step = Rejected(error: PluginError) | AlreadyInstalled | Installs(plugin: Plugin)

  const ManifestFile: string := "zource-plugin.json"

  function ManifestPath(dir: string): string {
    dir + "/" + ManifestFile
  }

  /** The download location; `suffix` stands for the eight random letters. */
  function TempArchivePath(suffix: string): string {
    "data/tmp/plugin-" + suffix + ".zip"
  }

  /** PHP's (array) cast of the `namespaces` value: an object stays as it is, a string s
      becomes [0 => s]. */
  function AsArray(f: Field): seq<(string, string)> {
    match f
    case Table(pairs) => pairs
    case Text(s) => [("0", s)]
  }

  /** The name a validated manifest declares. */
  function ManifestName(info: map<string, Field>): string
    requires "name" in info && info["name"].Text?
  {
    info["name"].s
  }

  /** new Plugin(name, (array) namespaces), setActive(true), and setDescription when the
      manifest has a description. */
  function NewPlugin(id: nat, info: map<string, Field>): Plugin
    requires "name" in info && info["name"].Text? && "namespaces" in info
  {
    Plugin(id, info["name"].s, AsArray(info["namespaces"]), true,
           if "description" in info then Some(info["description"]) else None)
  }

  /** The decisions of installDirectory: the manifest must be a file, it must validate, and a
      plugin whose name is already stored is left alone. */
  function PlanInstall(ps: seq<Plugin>, nextId: nat, files: map<string, Node>, path: string): (r: Step)
    ensures r.Rejected? <==>
      !IsFileIn(files, ManifestPath(path)) || !Acceptable(Decode(files[ManifestPath(path)].content))
    ensures r.AlreadyInstalled? ==>
      exists i :: 0 <= i < |ps| && ps[i].name == Decode(files[ManifestPath(path)].content).fields["name"].s
    ensures r.Installs? ==>
      r.plugin.id == nextId && r.plugin.active && FindByName(ps, r.plugin.name).None?
  {
    var m := ManifestPath(path);
    if !IsFileIn(files, m) then Rejected(MissingPluginJson)
    else
      match CreatePluginInfo(Decode(files[m].content))
      case Err(e) => Rejected(e)
      case Ok(info) =>
        if FindByName(ps, ManifestName(info)).Some? then AlreadyInstalled
        else Installs(NewPlugin(nextId, info))
  }

  /** installDirectory: only a fresh install changes anything, and only then is the
      autoloader regenerated. */
  function InstallDirectorySpec(w: World, path: string): (r: (Status, World))
    ensures r.1.files == w.files
    ensures w.plugins <= r.1.plugins && |r.1.plugins| <= |w.plugins| + 1
    ensures r.0.Failed? ==> r.1 == w
    ensures |r.1.plugins| == |w.plugins| + 1 ==>
      r.0 == Done && r.1.nextId == w.nextId + 1 && r.1.autoloader == Entries(r.1.plugins)
  {
    match PlanInstall(w.plugins, w.nextId, w.files, path)
    case Rejected(e) => (Failed(e), w)
    case AlreadyInstalled => (Done, w)
    case Installs(p) =>
      var ps := w.plugins + [p];
      (Done, w.(plugins := ps, nextId := w.nextId + 1, autoloader := Entries(ps)))
  }

  /** installFile: the archive is deleted when it cannot be opened or lacks the manifest;
      a manifest that fails validation leaves everything as it was; otherwise the archive is
      extracted into the plugin directory and that directory is installed. */
  function InstallFileSpec(w: World, file: string): (r: (Status, World))
    ensures w.plugins <= r.1.plugins && |r.1.plugins| <= |w.plugins| + 1
    ensures r.0.Failed? ==> r.1.plugins == w.plugins && r.1.autoloader == w.autoloader
  {
    if !IsArchiveIn(w.files, file) then
      (Failed(CannotOpenArchive), w.(files := Unlinked(w.files, file)))
    else
      var members := w.files[file].content.members;
      match Lookup(members, ManifestFile)
      case None => (Failed(MissingManifestEntry), w.(files := Unlinked(w.files, file)))
      case Some(c) =>
        match CreatePluginInfo(Decode(c))
        case Err(e) => (Failed(e), w)
        case Ok(info) =>
          var dir := PluginDir(ManifestName(info));
          InstallDirectorySpec(w.(files := Extracted(w.files, dir, members)), dir)
  }

  /** installExternal: a directory is installed in place; anything else is downloaded to the
      temporary archive path, and installed from there when the response is OK. */
  function InstallExternalSpec(w: World, path: string, response: Response, suffix: string): (r: (Status, World))
    ensures w.plugins <= r.1.plugins && |r.1.plugins| <= |w.plugins| + 1
    ensures r.0.Failed? ==> r.1.plugins == w.plugins && r.1.autoloader == w.autoloader
  {
    if IsDirIn(w.files, path) then InstallDirectorySpec(w, path)
    else
      var tmp := TempArchivePath(suffix);
      var downloaded := w.(files := w.files[tmp := File(response.body)]);
      if !response.ok then (Failed(DownloadFailed), downloaded)
      else InstallFileSpec(downloaded, tmp)
  }

  /** uninstall: the record is deleted first; then the plugin directory is removed, and the
      autoloader regenerated, only when that path is a directory. */
  function UninstallSpec(w: World, plugin: Plugin): (r: (Status, World))
    ensures forall p :: p in r.1.plugins <==> p in w.plugins && p.id != plugin.id
    ensures r.0 == Done <==> IsDirIn(w.files, PluginDir(plugin.name))
    ensures r.1.nextId == w.nextId
  {
    var ps := RemoveId(w.plugins, plugin.id);
    var dir := PluginDir(plugin.name);
    if !IsDirIn(w.files, dir) then (Failed(NotADirectory), w.(plugins := ps))
    else (Done, w.(plugins := ps, files := RemovedTree(w.files, dir), autoloader := Entries(ps)))
  }

  /** activatePlugin (flag true) and deactivatePlugin (flag false). */
  function SetActiveSpec(w: World, plugin: Plugin, flag: bool): (r: World)
    ensures |r.plugins| == |w.plugins| && r.files == w.files && r.nextId == w.nextId
    ensures forall i :: 0 <= i < |w.plugins| ==>
      r.plugins[i].id == w.plugins[i].id && r.plugins[i].name == w.plugins[i].name &&
      r.plugins[i].active == (if w.plugins[i].id == plugin.id then flag else w.plugins[i].active)
  {
    var ps := SetActive(w.plugins, plugin.id, flag);
    w.(plugins := ps, autoloader := Entries(ps))
  }

  // ---------------------------------------------------------------------------------------
  // Properties of the operations

  /** installDirectory fails, with nothing changed, exactly when the manifest file is missing
      or does not validate; the error is the first failing check. */
  lemma InstallDirectoryFailures(w: World, path: string)
    ensures var m := ManifestPath(path);
      var out := InstallDirectorySpec(w, path);
      (!IsFileIn(w.files, m) ==> out == (Failed(MissingPluginJson), w)) &&
      (IsFileIn(w.files, m) && !Acceptable(Decode(w.files[m].content)) ==>
         out == (Failed(CreatePluginInfo(Decode(w.files[m].content)).error), w)) &&
      (out.0.Failed? ==> out.1 == w)
  {
  }

  /** Installing a plugin whose name is already stored changes nothing: the registry, the
      files and the autoloader stay as they are. */
  lemma InstallDirectoryExistingName(w: World, path: string, i: int)
    requires IsFileIn(w.files, ManifestPath(path))
    requires var d := Decode(w.files[ManifestPath(path)].content);
      Acceptable(d) && 0 <= i < |w.plugins| && w.plugins[i].name == d.fields["name"].s
    ensures InstallDirectorySpec(w, path) == (Done, w)
  {
  }

  /** A fresh install appends exactly one record, active, with the manifest's name and
      namespaces and a description exactly when the manifest has one; the records already
      stored are untouched, and the regenerated autoloader holds an entry for each of the
      new plugin's namespaces after the entries it held for the stored plugins. */
  lemma FreshInstall(w: World, path: string)
    requires IsFileIn(w.files, ManifestPath(path))
    requires var d := Decode(w.files[ManifestPath(path)].content);
      Acceptable(d) && forall i :: 0 <= i < |w.plugins| ==> w.plugins[i].name != d.fields["name"].s
    ensures var info := Decode(w.files[ManifestPath(path)].content).fields;
      var out := InstallDirectorySpec(w, path);
      var ps := out.1.plugins;
      var p := ps[|ps| - 1];
      out.0 == Done && |ps| == |w.plugins| + 1 && ps[..|w.plugins|] == w.plugins &&
      p.id == w.nextId && p.active && p.name == info["name"].s &&
      p.namespaces == AsArray(info["namespaces"]) &&
      (p.description.Some? <==> "description" in info) &&
      ("description" in info ==> p.description == Some(info["description"])) &&
      out.1.files == w.files && out.1.nextId == w.nextId + 1 &&
      out.1.autoloader == Entries(w.plugins) + NamespaceEntries(p.name, p.namespaces)
  {
    var out := InstallDirectorySpec(w, path);
    var ps := out.1.plugins;
    var p := ps[|ps| - 1];
    assert ps == w.plugins + [p];
    EntriesAppend(w.plugins, [p]);
    assert [p][..0] == [];
  }

  /** installDirectory keeps names and ids unique and below the next id. */
  lemma InstallDirectoryKeepsConsistent(w: World, path: string)
    requires Consistent(w.plugins, w.nextId)
    ensures var w' := InstallDirectorySpec(w, path).1; Consistent(w'.plugins, w'.nextId)
  {
    var step := PlanInstall(w.plugins, w.nextId, w.files, path);
    if step.Installs? {
      var p := step.plugin;
      var ps := w.plugins + [p];
      assert forall i :: 0 <= i < |w.plugins| ==> w.plugins[i].name != p.name;
      assert forall i :: 0 <= i < |w.plugins| ==> w.plugins[i].id < p.id;
      assert forall i :: 0 <= i < |w.plugins| ==> ps[i] == w.plugins[i];
    }
  }

  /** Installing the same directory twice is the same as installing it once: the second run
      reports the outcome of the first and changes nothing. */
  lemma InstallDirectoryIdempotent(w: World, path: string)
    ensures var out := InstallDirectorySpec(w, path);
      InstallDirectorySpec(out.1, path) == out
  {
    var out := InstallDirectorySpec(w, path);
    var step := PlanInstall(w.plugins, w.nextId, w.files, path);
    if step.Installs? {
      var ps := out.1.plugins;
      assert ps[|ps| - 1].name == step.plugin.name;
      assert FindByName(ps, step.plugin.name).Some?;
    }
  }

  /** installFile leaves the registry and the autoloader alone when the archive cannot be
      opened or has no manifest, and then deletes the archive; a manifest that fails
      validation leaves the archive, and everything else, in place. */
  lemma InstallFileFailures(w: World, file: string)
    ensures var out := InstallFileSpec(w, file);
      (!IsArchiveIn(w.files, file) ==>
         out == (Failed(CannotOpenArchive), w.(files := Unlinked(w.files, file))) &&
         !IsFileIn(out.1.files, file)) &&
      (IsArchiveIn(w.files, file) && Lookup(w.files[file].content.members, ManifestFile).None? ==>
         out == (Failed(MissingManifestEntry), w.(files := w.files - {file}))) &&
      (IsArchiveIn(w.files, file) && Lookup(w.files[file].content.members, ManifestFile).Some? &&
       !Acceptable(Decode(Lookup(w.files[file].content.members, ManifestFile).value)) ==>
         out.0.Failed? && out.1 == w && IsArchiveIn(out.1.files, file))
  {
  }

  /** An archive with distinct member names and a valid manifest is extracted into
      data/plugins/<name> and installed from there, a new name gaining a record at the end
      of the registry. */
  lemma InstallFileInstalls(w: World, file: string)
    requires IsArchiveIn(w.files, file)
    requires var members := w.files[file].content.members;
      UniqueMemberNames(members) && Lookup(members, ManifestFile).Some? &&
      Acceptable(Decode(Lookup(members, ManifestFile).value))
    ensures var members := w.files[file].content.members;
      var info := Decode(Lookup(members, ManifestFile).value).fields;
      var dir := PluginDir(info["name"].s);
      var out := InstallFileSpec(w, file);
      out.0 == Done &&
      out.1.files == Extracted(w.files, dir, members) &&
      (FindByName(w.plugins, info["name"].s).Some? ==> out.1.plugins == w.plugins) &&
      (FindByName(w.plugins, info["name"].s).None? ==> out.1.plugins == w.plugins + [NewPlugin(w.nextId, info)])
  {
    var members := w.files[file].content.members;
    var c := Lookup(members, ManifestFile).value;
    var info := Decode(c).fields;
    var dir := PluginDir(info["name"].s);
    ExtractedMember(w.files, dir, members, ManifestFile, c);
    assert ManifestPath(dir) == dir + "/" + ManifestFile;
  }

  lemma InstallFileKeepsConsistent(w: World, file: string)
    requires Consistent(w.plugins, w.nextId)
    ensures var w' := InstallFileSpec(w, file).1; Consistent(w'.plugins, w'.nextId)
  {
    if IsArchiveIn(w.files, file) {
      var members := w.files[file].content.members;
      var c := Lookup(members, ManifestFile);
      if c.Some? && CreatePluginInfo(Decode(c.value)).Ok? {
        var dir := PluginDir(ManifestName(CreatePluginInfo(Decode(c.value)).value));
        InstallDirectoryKeepsConsistent(w.(files := Extracted(w.files, dir, members)), dir);
      }
    }
  }

  /** installExternal keeps the registry invariant on every path; a failed download leaves
      the registry as it was. */
  lemma InstallExternalKeepsConsistent(w: World, path: string, response: Response, suffix: string)
    requires Consistent(w.plugins, w.nextId)
    ensures var w' := InstallExternalSpec(w, path, response, suffix).1; Consistent(w'.plugins, w'.nextId)
    ensures !IsDirIn(w.files, path) && !response.ok ==>
      InstallExternalSpec(w, path, response, suffix).0 == Failed(DownloadFailed) &&
      InstallExternalSpec(w, path, response, suffix).1.plugins == w.plugins
  {
    if IsDirIn(w.files, path) {
      InstallDirectoryKeepsConsistent(w, path);
    } else {
      var tmp := TempArchivePath(suffix);
      InstallFileKeepsConsistent(w.(files := w.files[tmp := File(response.body)]), tmp);
    }
  }

  /** After uninstalling, the name is no longer found, whether or not the clean-up succeeds.
      On success the plugin directory and everything in it are gone and the autoloader is
      regenerated; when the path is not a directory the files stay and the autoloader keeps
      its old entries, including those of the removed plugin. */
  lemma UninstallRemovesPlugin(w: World, plugin: Plugin)
    requires Consistent(w.plugins, w.nextId) && plugin in w.plugins
    ensures var out := UninstallSpec(w, plugin);
      var dir := PluginDir(plugin.name);
      Consistent(out.1.plugins, out.1.nextId) && FindByName(out.1.plugins, plugin.name) == None &&
      FindById(out.1.plugins, plugin.id) == None &&
      (out.0 == Done <==> IsDirIn(w.files, dir)) &&
      (out.0 == Done ==>
         (forall q :: q in out.1.files <==> q in w.files && q != dir && !Under(q, dir)) &&
         out.1.autoloader == Entries(out.1.plugins)) &&
      (out.0.Failed? ==> out.0 == Failed(NotADirectory) && out.1.files == w.files && out.1.autoloader == w.autoloader)
  {
    RemovedNameIsGone(w.plugins, plugin);
    RemoveIdKeepsConsistent(w.plugins, plugin.id, w.nextId);
  }

  /** activatePlugin / deactivatePlugin change the flag of that one plugin and nothing else in
      the registry, keep the registry invariant, and regenerate the autoloader. */
  lemma SetActiveChangesOnlyThatFlag(w: World, plugin: Plugin, flag: bool)
    requires Consistent(w.plugins, w.nextId) && plugin in w.plugins
    ensures var w' := SetActiveSpec(w, plugin, flag);
      Consistent(w'.plugins, w'.nextId) && |w'.plugins| == |w.plugins| &&
      (forall i :: 0 <= i < |w.plugins| ==>
         w'.plugins[i] == if w.plugins[i] == plugin then plugin.(active := flag) else w.plugins[i]) &&
      FindById(w'.plugins, plugin.id) == Some(plugin.(active := flag)) &&
      w'.files == w.files && w'.nextId == w.nextId && w'.autoloader == Entries(w'.plugins)
  {
    var w' := SetActiveSpec(w, plugin, flag);
    SetActiveKeepsConsistent(w.plugins, plugin.id, flag, w.nextId);
    forall i | 0 <= i < |w.plugins|
      ensures w'.plugins[i] == if w.plugins[i] == plugin then plugin.(active := flag) else w.plugins[i]
    {
      IdIdentifies(w.plugins, plugin, i);
    }
    var l :| 0 <= l < |w.plugins| && w.plugins[l] == plugin;
    var found := FindById(w'.plugins, plugin.id);
    var k :| 0 <= k < |w'.plugins| && w'.plugins[k] == found.value;
    IdIdentifies(w.plugins, plugin, k);
  }

  /** The (array) cast of a `namespaces` string s gives the single namespace "0", loaded
      from data/plugins/<name>/s without its leading slashes. */
  lemma StringNamespacesCast(name: string, s: string)
    ensures NamespaceEntries(name, AsArray(Text(s))) == [("0", PluginDir(name) + "/" + LTrim(s, '/'))]
  {
    assert AsArray(Text(s))[..0] == [];
  }

  /** The name check does not exclude `..` segments: a manifest named ../../tmp/a/b is
      accepted, and its plugin directory is data/plugins/../../tmp/a/b, which resolves
      outside data/plugins. */
  lemma DotDotNameAccepted()
    ensures CreatePluginInfo(Array(map["name" := Text("../../tmp/a/b"), "namespaces" := Table([])])).Ok?
    ensures PluginDir("../../tmp/a/b") == "data/plugins/../../tmp/a/b"
  {
    var name := "../../tmp/a/b";
    assert name[9] == '/' && IsNameChar(name[8]) && IsNameChar(name[10]);
    assert NameCheck(name);
    NameCheckIsPatternSearch(name);
  }

  /** The check of `namespaces` is only that the key exists: an empty table passes, and the
      plugin is installed and active with no entry in the autoloader table. */
  lemma EmptyNamespacesAccepted()
    ensures var dir := "data/plugins/acme/widgets";
      var manifest := Array(map["name" := Text("acme/widgets"), "namespaces" := Table([])]);
      var w := World([], 0, map[dir := Dir, ManifestPath(dir) := File(Json(manifest))], []);
      var out := InstallDirectorySpec(w, dir);
      CreatePluginInfo(manifest).Ok? &&
      out.0 == Done &&
      out.1.plugins == [Plugin(0, "acme/widgets", [], true, None)] &&
      out.1.autoloader == []
  {
    var name := "acme/widgets";
    assert name[4] == '/' && IsNameChar(name[3]) && IsNameChar(name[5]);
    assert NameCheck(name);
    NameCheckIsPatternSearch(name);
    var dir := "data/plugins/acme/widgets";
    var manifest := Array(map["name" := Text("acme/widgets"), "namespaces" := Table([])]);
    var files := map[dir := Dir, ManifestPath(dir) := File(Json(manifest))];
    assert CreatePluginInfo(manifest) == Ok(manifest.fields);
    var p := Plugin(0, "acme/widgets", [], true, None);
    assert PlanInstall([], 0, files, dir) == Installs(p);
    assert [p][..0] == [];
    assert Entries([p]) == [];
  }

  /** An archive holding the manifest twice is validated on its first copy, but extraction
      keeps the last one, which installDirectory reads back. With a second copy that is not
      JSON the install fails after the files are extracted, and they stay on disk. */
  lemma DuplicateManifestInstall()
    ensures var dir := PluginDir("acme/widgets");
      var manifest := Array(map["name" := Text("acme/widgets"), "namespaces" := Table([])]);
      var members := [(ManifestFile, Json(manifest)), (ManifestFile, Json(Null))];
      var w := World([], 0, map["acme.zip" := File(Zip(members))], []);
      var out := InstallFileSpec(w, "acme.zip");
      CreatePluginInfo(Decode(Lookup(members, ManifestFile).value)).Ok? &&
      out.0 == Failed(InvalidJson) &&
      IsDirIn(out.1.files, dir) &&
      IsFileIn(out.1.files, ManifestPath(dir)) && out.1.files[ManifestPath(dir)] == File(Json(Null)) &&
      out.1.plugins == []
  {
    var name := "acme/widgets";
    assert name[4] == '/' && IsNameChar(name[3]) && IsNameChar(name[5]);
    assert NameCheck(name);
    NameCheckIsPatternSearch(name);
    var dir := PluginDir(name);
    var manifest := Array(map["name" := Text(name), "namespaces" := Table([])]);
    var members := [(ManifestFile, Json(manifest)), (ManifestFile, Json(Null))];
    var w := World([], 0, map["acme.zip" := File(Zip(members))], []);
    assert Lookup(members, ManifestFile) == Some(Json(manifest));
    assert CreatePluginInfo(manifest) == Ok(manifest.fields);
    ExtractedTwoMembers(w.files, dir, members[0], members[1]);
    var extracted := Extracted(w.files, dir, members);
    assert |ManifestPath(dir)| != |dir|;
    assert IsDirIn(extracted, dir);
    assert extracted[ManifestPath(dir)] == File(Json(Null));
    assert PlanInstall([], 0, extracted, dir) == Rejected(InvalidJson);
  }

  /** Extracting two members writes the first and then the second. */
  lemma ExtractedTwoMembers(files: map<string, Node>, dir: string, a: (string, Content), b: (string, Content))
    ensures Extracted(files, dir, [a, b]) == files[dir := Dir][dir + "/" + a.0 := File(a.1)][dir + "/" + b.0 := File(b.1)]
  {
    assert [a, b][..1] == [a];
    assert [a][..0] == [];
    assert Extracted(files, dir, []) == files[dir := Dir];
    assert Extracted(files, dir, [a]) == files[dir := Dir][dir + "/" + a.0 := File(a.1)];
  }

  /** The unanchored name check accepts a name nested inside another plugin's name.
      Uninstalling `a/b` then deletes `data/plugins/a/b/c` with the rest of its directory,
      while the record of `a/b/c` stays stored. */
  lemma NestedNameUninstall()
    ensures var outer := Plugin(0, "a/b", [], true, None);
      var inner := Plugin(1, "a/b/c", [], true, None);
      var w := World([outer, inner], 2, map["data/plugins/a/b" := Dir, "data/plugins/a/b/c" := Dir], []);
      var out := UninstallSpec(w, outer);
      CreatePluginInfo(Array(map["name" := Text("a/b"), "namespaces" := Table([])])).Ok? &&
      CreatePluginInfo(Array(map["name" := Text("a/b/c"), "namespaces" := Table([])])).Ok? &&
      out.0 == Done &&
      out.1.plugins == [inner] &&
      "data/plugins/a/b/c" !in out.1.files
  {
    var outerName, innerName := "a/b", "a/b/c";
    assert outerName[1] == '/' && IsNameChar(outerName[0]) && IsNameChar(outerName[2]);
    assert NameCheck(outerName);
    NameCheckIsPatternSearch(outerName);
    assert innerName[1] == '/' && IsNameChar(innerName[0]) && IsNameChar(innerName[2]);
    assert NameCheck(innerName);
    NameCheckIsPatternSearch(innerName);
    assert PluginDir("a/b") == "data/plugins/a/b";
    assert Under("data/plugins/a/b/c", "data/plugins/a/b") by {
      assert "data/plugins/a/b" + "/" == "data/plugins/a/b/c"[..17];
    }
  }

  /** The worked example: installing the directory data/plugins/acme/widgets whose manifest
      names acme/widgets with namespace Acme\Widgets => src stores one active plugin and
      yields the single entry Acme\Widgets => data/plugins/acme/widgets/src. */
  lemma AcmeWidgetsExample()
    ensures var dir := "data/plugins/acme/widgets";
      var manifest := Array(map["name" := Text("acme/widgets"), "namespaces" := Table([("Acme\\Widgets", "src")])]);
      var w := World([], 0, map[dir := Dir, ManifestPath(dir) := File(Json(manifest))], []);
      var out := InstallDirectorySpec(w, dir);
      out.0 == Done &&
      out.1.plugins == [Plugin(0, "acme/widgets", [("Acme\\Widgets", "src")], true, None)] &&
      out.1.autoloader == [("Acme\\Widgets", "data/plugins/acme/widgets/src")]
  {
    var name := "acme/widgets";
    assert name[4] == '/' && IsNameChar(name[3]) && IsNameChar(name[5]);
    assert NameCheck(name);
    NameCheckIsPatternSearch(name);
    var dir := "data/plugins/acme/widgets";
    var manifest := Array(map["name" := Text("acme/widgets"), "namespaces" := Table([("Acme\\Widgets", "src")])]);
    var files := map[dir := Dir, ManifestPath(dir) := File(Json(manifest))];
    assert CreatePluginInfo(manifest) == Ok(manifest.fields);
    var p := Plugin(0, "acme/widgets", [("Acme\\Widgets", "src")], true, None);
    assert PlanInstall([], 0, files, dir) == Installs(p);
    AcmeWidgetsEntries(p);
  }

  /** The table of the example plugin. */
  lemma AcmeWidgetsEntries(p: Plugin)
    requires p == Plugin(0, "acme/widgets", [("Acme\\Widgets", "src")], true, None)
    ensures Entries([p]) == [("Acme\\Widgets", "data/plugins/acme/widgets/src")]
  {
    assert LTrim("src", '/') == "src";
    assert PluginDir(p.name) + "/" + "src" == "data/plugins/acme/widgets/src";
    assert [p][..0] == [];
    assert p.namespaces[..0] == [];
    assert NamespaceEntries(p.name, p.namespaces) == [("Acme\\Widgets", "data/plugins/acme/widgets/src")];
  }

  // ---------------------------------------------------------------------------------------
  // The plugin manager object

  class PluginManager {
    var plugins: seq<Plugin>
    var nextId: nat
    var autoloader: seq<Entry>
    const fs: FileSystem

    ghost predicate Valid()
      reads this
    {
      Consistent(plugins, nextId)
    }

    ghost function State(): World
      reads this, fs
    {
      World(plugins, nextId, fs.entries, autoloader)
    }

    /** The entity manager is represented by the records it already stores. */
    constructor(fs: FileSystem, stored: seq<Plugin>, nextId: nat, autoloader: seq<Entry>)
      requires Consistent(stored, nextId)
      ensures Valid() && this.fs == fs
      ensures plugins == stored && this.nextId == nextId && this.autoloader == autoloader
    {
      this.fs := fs;
      plugins := stored;
      this.nextId := nextId;
      this.autoloader := autoloader;
    }

    method ActivatePlugin(plugin: Plugin)
      requires Valid() && plugin in plugins
      modifies this
      ensures Valid()
      ensures State() == SetActiveSpec(old(State()), plugin, true)
    {
      plugins := SetActive(plugins, plugin.id, true);
      SetActiveKeepsConsistent(old(plugins), plugin.id, true, nextId);
      UpdateAutoloader();
    }

    method DeactivatePlugin(plugin: Plugin)
      requires Valid() && plugin in plugins
      modifies this
      ensures Valid()
      ensures State() == SetActiveSpec(old(State()), plugin, false)
    {
      plugins := SetActive(plugins, plugin.id, false);
      SetActiveKeepsConsistent(old(plugins), plugin.id, false, nextId);
      UpdateAutoloader();
    }

    method InstallExternal(path: string, response: Response, suffix: string) returns (r: Status)
      requires Valid()
      modifies this, fs
      ensures Valid()
      ensures (r, State()) == InstallExternalSpec(old(State()), path, response, suffix)
    {
      if fs.IsDir(path) {
        r := InstallDirectory(path);
      } else {
        r := DownloadFile(path, response, suffix);
      }
    }

    /** downloadFile: the request to `url` is not modelled; its response is a parameter. */
    method DownloadFile(url: string, response: Response, suffix: string) returns (r: Status)
      requires Valid()
      modifies this, fs
      ensures Valid()
      ensures var tmp := TempArchivePath(suffix);
        var downloaded := old(State()).(files := old(fs.entries)[tmp := File(response.body)]);
        (r, State()) == if !response.ok then (Failed(DownloadFailed), downloaded) else InstallFileSpec(downloaded, tmp)
    {
      var tmp := TempArchivePath(suffix);
      fs.Write(tmp, File(response.body));
      if !response.ok {
        return Failed(DownloadFailed);
      }
      r := InstallFile(tmp);
    }

    method InstallFile(file: string) returns (r: Status)
      requires Valid()
      modifies this, fs
      ensures Valid()
      ensures (r, State()) == InstallFileSpec(old(State()), file)
    {
      if !IsArchiveIn(fs.entries, file) {
        fs.Unlink(file);
        return Failed(CannotOpenArchive);
      }
      var members := fs.entries[file].content.members;
      var manifest := Lookup(members, ManifestFile);
      if manifest.None? {
        fs.Unlink(file);
        return Failed(MissingManifestEntry);
      }
      var info := CreatePluginInfo(Decode(manifest.value));
      if info.Err? {
        return Failed(info.error);
      }
      var dir := PluginDir(ManifestName(info.value));
      fs.ExtractTo(dir, members);
      r := InstallDirectory(dir);
    }

    method InstallDirectory(path: string) returns (r: Status)
      requires Valid()
      modifies this
      ensures Valid()
      ensures (r, State()) == InstallDirectorySpec(old(State()), path)
    {
      var m := ManifestPath(path);
      if !fs.IsFile(m) {
        return Failed(MissingPluginJson);
      }
      var info := CreatePluginInfo(Decode(fs.entries[m].content));
      if info.Err? {
        return Failed(info.error);
      }
      if FindByName(plugins, ManifestName(info.value)).Some? {
        return Done;
      }
      var plugin := NewPlugin(nextId, info.value);
      plugins := plugins + [plugin];
      nextId := nextId + 1;
      InstallDirectoryKeepsConsistent(old(State()), path);
      UpdateAutoloader();
      r := Done;
    }

    method Uninstall(plugin: Plugin) returns (r: Status)
      requires Valid() && plugin in plugins
      modifies this, fs
      ensures Valid()
      ensures (r, State()) == UninstallSpec(old(State()), plugin)
    {
      plugins := RemoveId(plugins, plugin.id);
      RemoveIdKeepsConsistent(old(plugins), plugin.id, nextId);
      var cleaned, removed := CleanUpDirectory(PluginDir(plugin.name));
      if cleaned.Failed? {
        return cleaned;
      }
      UpdateAutoloader();
      r := Done;
    }

    /** updateAutoloader: the table of the active plugins, in storage order. */
    method UpdateAutoloader()
      modifies this`autoloader
      ensures autoloader == Entries(plugins)
    {
      autoloader := BuildEntries(plugins);
    }

    /** cleanUpDirectory: deletes everything inside `dir` child-first, then `dir` itself.
        `removed` lists the deleted paths in the order they were deleted. */
    method CleanUpDirectory(dir: string) returns (r: Status, removed: seq<string>)
      modifies fs
      ensures r == Done <==> old(fs.IsDir(dir))
      ensures r.Failed? ==> r == Failed(NotADirectory) && fs.entries == old(fs.entries) && removed == []
      ensures r == Done ==> fs.entries == RemovedTree(old(fs.entries), dir)
      ensures r == Done ==>
        (forall q :: q in removed <==> q == dir || (q in old(fs.entries) && Under(q, dir))) &&
        NoDuplicates(removed) && ChildFirst(removed) && removed[|removed| - 1] == dir
    {
      if !fs.IsDir(dir) {
        return Failed(NotADirectory), [];
      }
      var order := ChildFirstOrder(fs.entries, dir);
      ghost var start := fs.entries;
      var k := 0;
      removed := [];
      while k < |order|
        invariant 0 <= k <= |order|
        invariant removed == order[..k]
        invariant forall q :: q in fs.entries <==> q in start && q !in order[..k]
        invariant forall q :: q in fs.entries ==> fs.entries[q] == start[q]
      {
        var p := order[k];
        assert p !in order[..k];
        if fs.IsFile(p) {
          fs.Unlink(p);
        } else {
          forall q | q in fs.entries
            ensures !Under(q, p)
          {
            UnderTransitive(q, p, dir);
            UnderIsLonger(q, p);
            if Under(q, dir) {
              var j :| 0 <= j < |order| && order[j] == q;
              assert q !in order[..k];
              assert j >= k;
            }
          }
          fs.Rmdir(p);
        }
        removed := removed + [p];
        assert order[..k + 1] == order[..k] + [p];
        k := k + 1;
      }
      assert order[..k] == order;
      assert !Under(dir, dir);
      fs.Rmdir(dir);
      removed := removed + [dir];
      r := Done;
      forall i | 0 <= i < |order|
        ensures !Under(dir, order[i])
      {
        UnderIsLonger(order[i], dir);
        UnderIsLonger(dir, order[i]);
      }
    }
  }
}

=== FILE: registry.dfy ===
/** The plugin registry: the Plugin records the entity manager stores, and the queries and
    updates PluginManager.php performs on them, over an in-memory sequence in storage order. */
module Registry {
  import opened Outcomes
  import opened Manifest

  /** A stored Plugin entity. */
  datatype Plugin = Plugin(
    id: nat,
    name: string,
    namespaces: seq<(string, string)>,  // namespace => path, in manifest order
    active: bool,
    description: Option<Field>)

  ghost predicate UniqueNames(ps: seq<Plugin>) {
    forall i, j :: 0 <= i < j < |ps| ==> ps[i].name != ps[j].name
  }

  ghost predicate UniqueIds(ps: seq<Plugin>) {
    forall i, j :: 0 <= i < j < |ps| ==> ps[i].id != ps[j].id
  }

  /** Every stored id was handed out before `nextId`. */
  ghost predicate IdsBelow(ps: seq<Plugin>, nextId: nat) {
    forall i :: 0 <= i < |ps| ==> ps[i].id < nextId
  }

  /** The registry invariant: names and ids identify records, and fresh ids are unused. */
  ghost predicate Consistent(ps: seq<Plugin>, nextId: nat) {
    UniqueNames(ps) && UniqueIds(ps) && IdsBelow(ps, nextId)
  }

  /** findOneBy(['name' => name]): a stored plugin with that name, or nothing when none has it. */
  function FindByName(ps: seq<Plugin>, name: string): (r: Option<Plugin>)
    ensures r.Some? ==> r.value in ps && r.value.name == name
    ensures r.None? <==> forall i :: 0 <= i < |ps| ==> ps[i].name != name
  {
    if ps == [] then None
    else if ps[0].name == name then Some(ps[0])
    else FindByName(ps[1..], name)
  }

  /** find(id): the stored plugin with that id, or nothing when none has it. */
  function FindById(ps: seq<Plugin>, id: nat): (r: Option<Plugin>)
    ensures r.Some? ==> r.value in ps && r.value.id == id
    ensures r.None? <==> forall i :: 0 <= i < |ps| ==> ps[i].id != id
  {
    if ps == [] then None
    else if ps[0].id == id then Some(ps[0])
    else FindById(ps[1..], id)
  }

  /** setActive(flag) on the entity with that id, followed by a flush: that record's flag
      becomes `flag`, and every other field and every other record stays as it was. */
  function SetActive(ps: seq<Plugin>, id: nat, flag: bool): (r: seq<Plugin>)
    ensures |r| == |ps|
    ensures forall i :: 0 <= i < |ps| ==>
              r[i] == if ps[i].id == id then ps[i].(active := flag) else ps[i]
  {
    if ps == [] then []
    else [if ps[0].id == id then ps[0].(active := flag) else ps[0]] + SetActive(ps[1..], id, flag)
  }

  /** remove(entity) followed by a flush: the record with that id is deleted. */
  function RemoveId(ps: seq<Plugin>, id: nat): (r: seq<Plugin>)
    ensures forall p :: p in r <==> p in ps && p.id != id
    ensures |r| <= |ps|
  {
    if ps == [] then []
    else (if ps[0].id == id then [] else [ps[0]]) + RemoveId(ps[1..], id)
  }

  /** Deleting a record keeps the registry invariant. */
  lemma {:induction false} RemoveIdKeepsConsistent(ps: seq<Plugin>, id: nat, nextId: nat)
    requires Consistent(ps, nextId)
    ensures Consistent(RemoveId(ps, id), nextId)
  {
    if ps != [] {
      var rest := ps[1..];
      assert Consistent(rest, nextId) by {
        assert forall i :: 0 <= i < |rest| ==> rest[i] == ps[i + 1];
      }
      RemoveIdKeepsConsistent(rest, id, nextId);
      var tail := RemoveId(rest, id);
      var r := RemoveId(ps, id);
      if ps[0].id != id {
        assert r == [ps[0]] + tail;
        forall j | 0 < j < |r|
          ensures r[0].name != r[j].name && r[0].id != r[j].id
        {
          assert r[j] in tail;
          assert r[j] in rest;
          var k :| 0 <= k < |rest| && rest[k] == r[j];
          assert ps[k + 1] == r[j];
        }
      }
    }
  }

  /** Setting a flag keeps the registry invariant. */
  lemma SetActiveKeepsConsistent(ps: seq<Plugin>, id: nat, flag: bool, nextId: nat)
    requires Consistent(ps, nextId)
    ensures Consistent(SetActive(ps, id, flag), nextId)
  {
    var r := SetActive(ps, id, flag);
    assert forall i :: 0 <= i < |ps| ==> r[i].name == ps[i].name && r[i].id == ps[i].id;
  }

  /** Once a stored plugin is deleted, looking its name up finds nothing. */
  lemma RemovedNameIsGone(ps: seq<Plugin>, p: Plugin)
    requires UniqueNames(ps) && p in ps
    ensures FindByName(RemoveId(ps, p.id), p.name) == None
  {
    var r := RemoveId(ps, p.id);
    var l :| 0 <= l < |ps| && ps[l] == p;
    forall i | 0 <= i < |r|
      ensures r[i].name != p.name
    {
      assert r[i] in ps && r[i].id != p.id;
      var k :| 0 <= k < |ps| && ps[k] == r[i];
      assert k != l;
    }
  }

  /** In a registry whose ids are unique, a record is picked out by its id. */
  lemma IdIdentifies(ps: seq<Plugin>, p: Plugin, i: int)
    requires UniqueIds(ps) && p in ps && 0 <= i < |ps|
    ensures ps[i].id == p.id <==> ps[i] == p
  {
    var l :| 0 <= l < |ps| && ps[l] == p;
    if ps[i].id == p.id && i != l {
      assert false;
    }
  }
}

=== FILE: widget_container.dfy ===
/** The WidgetContainer entity: a dashboard container with a column layout such as "33-67"
    (column widths in percent, joined by '-') and the widgets placed in it. */
module Widgets {

  /** The column a widget is placed in, compared with PHP's `===`: an integer is never
      identical to a string. */
  datatype ColumnValue = IntColumn(i: int) | StringColumn(s: string)

  /** A widget entity; `id` stands for the object's identity. */
  datatype Widget = Widget(id: nat, column: ColumnValue)

  /** A generated UUID, taken as given. */
  type Uuid = string

  const LAYOUT_33_33_34: string := "33-33-34"
  const LAYOUT_33_67: string := "33-67"
  const LAYOUT_50_50: string := "50-50"
  const LAYOUT_67_33: string := "67-33"
  const LAYOUT_100: string := "100"

  const Layouts: seq<string> := [LAYOUT_33_33_34, LAYOUT_33_67, LAYOUT_50_50, LAYOUT_67_33, LAYOUT_100]

  // ---------------------------------------------------------------------------------------
  // explode and its inverse

  /** explode(sep, s): the pieces of s between the separators, always at least one. */
  function Explode(sep: char, s: string): (parts: seq<string>)
    ensures |parts| >= 1
    decreases |s|
  {
    if s == [] then [[]]
    else
      var rest := Explode(sep, s[1..]);
      if s[0] == sep then [[]] + rest else [[s[0]] + rest[0]] + rest[1..]
  }

  /** implode(sep, parts). */
  function Implode(sep: char, parts: seq<string>): string
    requires |parts| >= 1
    decreases |parts|
  {
    if |parts| == 1 then parts[0] else parts[0] + [sep] + Implode(sep, parts[1..])
  }

  function Occurrences(c: char, s: string): nat
    decreases |s|
  {
    if s == [] then 0 else (if s[0] == c then 1 else 0) + Occurrences(c, s[1..])
  }

  /** Joining the pieces with the separator gives back the string. */
  lemma {:induction false} ImplodeExplode(sep: char, s: string)
    ensures Implode(sep, Explode(sep, s)) == s
    decreases |s|
  {
    if s != [] {
      var rest := Explode(sep, s[1..]);
      ImplodeExplode(sep, s[1..]);
      if s[0] == sep {
        assert ([[]] + rest)[1..] == rest;
      } else if |rest| > 1 {
        var parts := [[s[0]] + rest[0]] + rest[1..];
        assert parts[1..] == rest[1..];
        assert s == [s[0]] + s[1..];
      }
    }
  }

  /** There is one more piece than there are separators. */
  lemma {:induction false} ExplodeCount(sep: char, s: string)
    ensures |Explode(sep, s)| == Occurrences(sep, s) + 1
    decreases |s|
  {
    if s != [] {
      ExplodeCount(sep, s[1..]);
    }
  }

  /** No piece contains the separator. */
  lemma {:induction false} ExplodePiecesHaveNoSeparator(sep: char, s: string)
    ensures forall part :: part in Explode(sep, s) ==> sep !in part
    decreases |s|
  {
    if s != [] {
      var rest := Explode(sep, s[1..]);
      ExplodePiecesHaveNoSeparator(sep, s[1..]);
      if s[0] != sep {
        assert rest[0] in rest;
        forall part | part in [[s[0]] + rest[0]] + rest[1..]
          ensures sep !in part
        {
          if part != [s[0]] + rest[0] {
            assert part in rest;
          }
        }
      }
    }
  }

  /** A piece without separator, a separator, and the rest split into that piece followed by
      the pieces of the rest. */
  lemma {:induction false} ExplodeJoined(sep: char, x: string, y: string)
    requires sep !in x
    ensures Explode(sep, x + [sep] + y) == [x] + Explode(sep, y)
    decreases |x|
  {
    var s := x + [sep] + y;
    if x == [] {
      assert s[1..] == y;
    } else {
      assert s[1..] == x[1..] + [sep] + y;
      ExplodeJoined(sep, x[1..], y);
      assert [x[0]] + x[1..] == x;
    }
  }

  /** A string without separator is a single piece. */
  lemma {:induction false} ExplodeWhole(sep: char, x: string)
    requires sep !in x
    ensures Explode(sep, x) == [x]
    decreases |x|
  {
    if x != [] {
      ExplodeWhole(sep, x[1..]);
      assert [x[0]] + x[1..] == x;
    }
  }

  /** Splitting is the only way back: pieces without separator are recovered from their
      join, so explode's result is the one list with those two properties. */
  lemma {:induction false} ExplodeImplode(sep: char, parts: seq<string>)
    requires |parts| >= 1 && forall part :: part in parts ==> sep !in part
    ensures Explode(sep, Implode(sep, parts)) == parts
    decreases |parts|
  {
    if |parts| == 1 {
      ExplodeWhole(sep, parts[0]);
    } else {
      assert parts[0] in parts;
      assert forall part :: part in parts[1..] ==> part in parts;
      ExplodeImplode(sep, parts[1..]);
      ExplodeJoined(sep, parts[0], Implode(sep, parts[1..]));
    }
  }

  // ---------------------------------------------------------------------------------------
  // Column widths

  predicate IsDigit(c: char) {
    '0' <= c <= '9'
  }

  predicate AllDigits(s: string) {
    forall i :: 0 <= i < |s| ==> IsDigit(s[i])
  }

  /** The integer value of a string of decimal digits. */
  function DecimalValue(s: string): nat
    requires AllDigits(s)
    decreases |s|
  {
    if s == [] then 0 else 10 * DecimalValue(s[..|s| - 1]) + (s[|s| - 1] as int - '0' as int)
  }

  function WidthSum(columns: seq<string>): nat
    requires forall c :: c in columns ==> AllDigits(c)
    decreases |columns|
  {
    if columns == [] then 0 else DecimalValue(columns[0]) + WidthSum(columns[1..])
  }

  /** Two pieces without separator joined by one. */
  lemma ExplodeTwo(sep: char, x: string, y: string)
    requires sep !in x && sep !in y
    ensures Explode(sep, x + [sep] + y) == [x, y]
  {
    ExplodeWhole(sep, y);
    ExplodeJoined(sep, x, y);
  }

  /** The column widths explode finds in each predefined layout. */
  lemma Layout333334Columns()
    ensures Explode('-', LAYOUT_33_33_34) == ["33", "33", "34"]
  {
    assert "33-34" == "33" + "-" + "34";
    ExplodeTwo('-', "33", "34");
    assert LAYOUT_33_33_34 == "33" + ['-'] + "33-34";
    ExplodeJoined('-', "33", "33-34");
  }

  lemma Layout3367Columns()
    ensures Explode('-', LAYOUT_33_67) == ["33", "67"]
  {
    assert LAYOUT_33_67 == "33" + "-" + "67";
    ExplodeTwo('-', "33", "67");
  }

  lemma Layout5050Columns()
    ensures Explode('-', LAYOUT_50_50) == ["50", "50"]
  {
    assert LAYOUT_50_50 == "50" + "-" + "50";
    ExplodeTwo('-', "50", "50");
  }

  lemma Layout6733Columns()
    ensures Explode('-', LAYOUT_67_33) == ["67", "33"]
  {
    assert LAYOUT_67_33 == "67" + "-" + "33";
    ExplodeTwo('-', "67", "33");
  }

  lemma Layout100Columns()
    ensures Explode('-', LAYOUT_100) == ["100"]
  {
    ExplodeWhole('-', "100");
  }

  /** The widths written in the predefined layouts. */
  lemma LayoutWidths()
    ensures AllDigits("33") && DecimalValue("33") == 33
    ensures AllDigits("34") && DecimalValue("34") == 34
    ensures AllDigits("50") && DecimalValue("50") == 50
    ensures AllDigits("67") && DecimalValue("67") == 67
    ensures AllDigits("100") && DecimalValue("100") == 100
  {
    assert "33"[..1] == "3" && "34"[..1] == "3" && "50"[..1] == "5" && "67"[..1] == "6";
    assert "100"[..2] == "10" && "10"[..1] == "1";
  }

  /** A layout of one to three columns, each a decimal width, adding up to 100 percent. */
  predicate FillsTheRow(layout: string) {
    var columns := Explode('-', layout);
    1 <= |columns| <= 3 && (forall c :: c in columns ==> AllDigits(c)) && WidthSum(columns) == 100
  }

  lemma Layout333334Fills()
    ensures FillsTheRow(LAYOUT_33_33_34)
  {
    LayoutWidths();
    Layout333334Columns();
    assert ["33", "33", "34"][1..] == ["33", "34"];
    assert ["33", "34"][1..] == ["34"];
    assert ["34"][1..] == [];
  }

  lemma Layout3367Fills()
    ensures FillsTheRow(LAYOUT_33_67)
  {
    LayoutWidths();
    Layout3367Columns();
    assert ["33", "67"][1..] == ["67"];
    assert ["67"][1..] == [];
  }

  lemma Layout5050Fills()
    ensures FillsTheRow(LAYOUT_50_50)
  {
    LayoutWidths();
    Layout5050Columns();
    assert ["50", "50"][1..] == ["50"];
    assert ["50"][1..] == [];
  }

  lemma Layout6733Fills()
    ensures FillsTheRow(LAYOUT_67_33)
  {
    LayoutWidths();
    Layout6733Columns();
    assert ["67", "33"][1..] == ["33"];
    assert ["33"][1..] == [];
  }

  lemma Layout100Fills()
    ensures FillsTheRow(LAYOUT_100)
  {
    LayoutWidths();
    Layout100Columns();
    assert ["100"][1..] == [];
  }

  /** Every predefined layout fills the row. */
  lemma StandardLayouts()
    ensures forall l :: l in Layouts ==> FillsTheRow(l)
  {
    Layout333334Fills();
    Layout3367Fills();
    Layout5050Fills();
    Layout6733Fills();
    Layout100Fills();
  }

  // ---------------------------------------------------------------------------------------
  // Widgets of one column

  /** The widgets whose column is identical to `column`, in collection order. */
  function ColumnWidgets(ws: seq<Widget>, column: ColumnValue): (r: seq<Widget>)
    ensures |r| <= |ws|
    ensures forall i :: 0 <= i < |r| ==> r[i].column == column
    decreases |ws|
  {
    if ws == [] then []
    else ColumnWidgets(ws[..|ws| - 1], column) + (if ws[|ws| - 1].column == column then [ws[|ws| - 1]] else [])
  }

  /** `idx` picks, in increasing positions of b, the elements of a. */
  ghost predicate Embeds(a: seq<Widget>, b: seq<Widget>, idx: seq<int>) {
    |idx| == |a| &&
    (forall k :: 0 <= k < |idx| ==> 0 <= idx[k] < |b| && a[k] == b[idx[k]]) &&
    (forall k, l :: 0 <= k < l < |idx| ==> idx[k] < idx[l])
  }

  ghost predicate IsSubsequence(a: seq<Widget>, b: seq<Widget>) {
    exists idx :: Embeds(a, b, idx)
  }

  /** The widgets of a column are exactly those of the collection placed in it, each as often
      as in the collection. */
  lemma {:induction false} ColumnWidgetsExactly(ws: seq<Widget>, column: ColumnValue)
    ensures forall w :: multiset(ColumnWidgets(ws, column))[w] == if w.column == column then multiset(ws)[w] else 0
    ensures forall w :: w in ColumnWidgets(ws, column) <==> w in ws && w.column == column
    decreases |ws|
  {
    if ws != [] {
      var init, last := ws[..|ws| - 1], ws[|ws| - 1];
      ColumnWidgetsExactly(init, column);
      assert ws == init + [last];
      assert multiset(ws) == multiset(init) + multiset{last};
    }
  }

  /** The widgets of a column keep the collection's order. */
  lemma {:induction false} ColumnWidgetsInOrder(ws: seq<Widget>, column: ColumnValue)
    ensures IsSubsequence(ColumnWidgets(ws, column), ws)
    decreases |ws|
  {
    var r := ColumnWidgets(ws, column);
    if ws == [] {
      assert Embeds(r, ws, []);
    } else {
      var init, last := ws[..|ws| - 1], ws[|ws| - 1];
      var r0 := ColumnWidgets(init, column);
      ColumnWidgetsInOrder(init, column);
      var idx :| Embeds(r0, init, idx);
      if last.column == column {
        assert r == r0 + [last];
        assert Embeds(r, ws, idx + [|ws| - 1]);
      } else {
        assert Embeds(r, ws, idx);
      }
    }
  }

  /** Two different columns share no widget. */
  lemma ColumnsAreDisjoint(ws: seq<Widget>, c1: ColumnValue, c2: ColumnValue)
    requires c1 != c2
    ensures forall w :: w in ColumnWidgets(ws, c1) ==> w !in ColumnWidgets(ws, c2)
  {
    ColumnWidgetsExactly(ws, c1);
    ColumnWidgetsExactly(ws, c2);
  }

  // ---------------------------------------------------------------------------------------
  // The entity

  class WidgetContainer {
    const id: Uuid
    var layout: string
    var widgets: seq<Widget>  // the widget collection, which callers change through getWidgets()

    /** A new container has the given layout and no widgets; `id` is the generated UUID. */
    constructor(id: Uuid, layout: string)
      ensures this.id == id && this.layout == layout && widgets == []
    {
      this.id := id;
      this.layout := layout;
      widgets := [];
    }

    /** The layout last stored by the constructor or by SetLayout. */
    function GetLayout(): string
      reads this
    {
      layout
    }

    /** Replaces the layout; the widgets stay where they are. */
    method SetLayout(newLayout: string)
      modifies this`layout
      ensures GetLayout() == newLayout && widgets == old(widgets)
    {
      UpdateWidgets(layout, newLayout);
      layout := newLayout;
    }

    /** Meant to move widgets when the layout changes; it does nothing yet. */
    method UpdateWidgets(oldLayout: string, newLayout: string)
      ensures layout == old(layout) && widgets == old(widgets)
    {
    }

    /** explode('-', layout): the column widths. */
    function GetColumns(): (columns: seq<string>)
      reads this
      ensures |columns| == Occurrences('-', GetLayout()) + 1
      ensures Implode('-', columns) == GetLayout()
      ensures forall c :: c in columns ==> '-' !in c
    {
      ImplodeExplode('-', layout);
      ExplodeCount('-', layout);
      ExplodePiecesHaveNoSeparator('-', layout);
      Explode('-', GetLayout())
    }

    /** The widgets of one column, collected in a loop over the collection; nothing changes. */
    method GetWidgetsForColumn(column: ColumnValue) returns (result: seq<Widget>)
      ensures result == ColumnWidgets(widgets, column)
    {
      result := [];
      var i := 0;
      while i < |widgets|
        invariant 0 <= i <= |widgets|
        invariant result == ColumnWidgets(widgets[..i], column)
      {
        if widgets[i].column == column {
          result := result + [widgets[i]];
        }
        assert widgets[..i + 1][..i] == widgets[..i];
        i := i + 1;
      }
      assert widgets[..|widgets|] == widgets;
    }
  }
}
